=== FILE: README.md ===
# linked_ptr in Dafny

`linked_ptr` is a reference-linked smart pointer: instead of a shared counter,
every handle is a node of a circular doubly-linked ring (`previous`/`next`), and
all handles that share one resource sit in the same ring. Copying or assigning
a handle splices it into the source's ring; `reset` and destruction either
unlink the handle (other owners remain) or release the resource (the handle is
alone); `unique()` tests `next == this`; `use_count()` walks the ring; `swap`
rewires the rings so that both stay well formed.

The model has three modules.

- `LinkNode` (LinkNode.dfy) is the algebra of the rings, as values. An arena of
  handle slots `0..n-1` is `Links(next, prev, stored)`; a pointer is an opaque
  integer identity and `0` is nullptr. Every operation rewrites the three
  sequences in exactly the order in which the C++ code writes the fields, so
  aliasing between the cells it touches (a ring of one, a ring of two, a
  neighbour that is also the other handle) is modelled as it happens. `Sound`
  is the invariant: `next` and `previous` are mutual inverses, every member of
  a ring holds the same pointer, and a ring of more than one member never holds
  null. The ghost `Layout` lists every ring as a sequence of slots in `next`
  order, which gives `use_count()` its meaning and lets the lemmas say which
  ring grows or shrinks by which handle. `Exchange` is an independent
  reference definition of a swap (rename the two handles into each other), and
  `ResetEach` runs a sequence of resets and collects what is released.
- `LinkedPtr` (LinkedPtr.dfy) is linked_ptr.hpp: class `Arena` keeps `next`,
  `prev` and `stored` in three arrays that its methods update in place, one
  C++ statement at a time; every method's contract ties the new arrays to the
  `LinkNode` function of the old ones, and the new layout to the matching
  layout function. `delete` is the ghost log `freed`; `delete nullptr` frees
  nothing and is not logged.
- `LinkedPtrDeleter` (LinkedPtrDeleter.dfy) is linked_ptr.h: the same arena
  with a `Deleter` policy whose every call, with a null argument included, is
  logged in `calls`, and with its member-wise `swap`.

A handle object is a slot of the arena and its address is the slot number. A
slot is either a live handle or dead storage, and dead storage is a singleton
holding null: the constructors turn a dead slot into a live handle, and
`Destroy` (the destructor, which is `reset()`) turns it back. `LinkNode.Valid`
is the invariant of a whole arena: sound links, rings as the layout describes
them, and empty dead storage. `Arena` keeps it in every public operation
(the constructors, the destructor, `reset`, assignment, `swap` and the
queries), through one lemma per operation; `DeleterArena` keeps it in the
same public operations except `Swap`, whose member-wise exchange is shown to
break it (see "## Findings"). The helper methods, `Link` in both classes and
`SwapUniques`, `SwapUniqueNonUnique`, `SwapNonUniques` and `SwapCases` in
`Arena`, model the protected `link` and the private `swap_*` members: they run while the invariant is
temporarily broken (the links are rewritten before the ghost layout is), so
their contracts state the new arrays only, and the public operation that
calls them re-establishes the invariant.

The two classes follow the two source files, which each define their own
handle type, so `DeleterArena` repeats `Arena`'s read-only queries
(`UseCount`, `Unique`, `Get`, `IsSet`, `IsNull`) over its own arrays; the
shared meaning of those queries lives once, in `LinkNode`.

## Model

| member | source | states |
|---|---|---|
| LinkNode.Unique | linked_ptr.hpp:155-157 | `unique()` tests `next == this`; under the invariant that is the same as `previous == this` |
| LinkNode.Singleton | linked_ptr.hpp:38-45 | the two constructors that make a handle alone give a well-shaped arena of the same size in which only that handle's pointer changes |
| LinkNode.LinkAfter | linked_ptr.hpp:28-34 | the four writes of `link`, in order; the result is well shaped, of the same size, with every stored pointer unchanged (its meaning: `LinkAfterSound`, `LinkDescribed`) |
| LinkNode.Unlink | linked_ptr.hpp:104-106 | the three writes of the non-unique branch of `reset`, in order; the result is well shaped, of the same size, with every stored pointer unchanged (its meaning: `UnlinkSound`, `UnlinkDescribed`) |
| LinkNode.Reset | linked_ptr.hpp:98-110 | `reset(p)` with its three branches; the result is well shaped, of the same size, and only the handle's own pointer changes, to `p` (its meaning: `ResetSound`, `ResetDescribed`) |
| LinkNode.CopyInit | linked_ptr.hpp:48-63 | copy and converting construction, linking for a non-null source; well shaped, same size, only the new handle's pointer changes, to the source's |
| LinkNode.Assign | linked_ptr.hpp:71-89 | assignment as `reset` followed by `link` for a non-null source; well shaped, same size, only the target's pointer changes, to the source's |
| LinkNode.SwapUniques | linked_ptr.hpp:182-185 | `swap_uniques` exchanges the two stored pointers and keeps the arena well shaped |
| LinkNode.SwapUniqueNonUnique | linked_ptr.hpp:170-180 | the six writes of `swap_unique_non_unique`, in order; well shaped, same size, the two stored pointers exchanged |
| LinkNode.SwapNonUniques | linked_ptr.hpp:187-194 | the five `std::swap`s of `swap_non_uniques` (the stored pointers, then the four link swaps), in order; well shaped, same size, the two stored pointers exchanged |
| LinkNode.Swap | linked_ptr.hpp:117-130 | the four-case dispatch of `swap`; well shaped, same size, the two stored pointers exchanged (equal ones trivially); its agreement with `Exchange` is `SwapIsExchange` |
| LinkNode.NaiveSwap | linked_ptr.h:133-137 | the member-wise `swap`; well shaped, same size, the two stored pointers exchanged, but the neighbours are not re-pointed (see `NaiveSwapBreaksRings`) |
| LinkNode.SingletonSound | linked_ptr.hpp:38-45 | a handle made alone (`previous = next = this`) with any pointer keeps every ring well formed |
| LinkNode.StoreSound | linked_ptr.hpp:101-108 | a handle alone in its ring may take any new pointer without breaking the invariant |
| LinkNode.LinkAfterSound | linked_ptr.hpp:28-34 | `link` from a handle holding non-null `p`: the new handle holds `p`, `source.next == new`, `new.previous == source`, the old `source.next` now points back to the new handle, nothing else moves, and the invariant holds |
| LinkNode.LinkPartition | linked_ptr.hpp:28-34 | after `link`, the source's ring is the old ring with the new handle inserted right after the source; every other ring is unchanged |
| LinkNode.LinkDescribed | linked_ptr.hpp:28-34 | the `next`/`previous` links after `link` form exactly the rings of `LinkLayout` |
| LinkNode.UnlinkSound | linked_ptr.hpp:103-107 | the non-unique branch of `reset`: the former `previous` and `next` are joined to each other, the handle is alone, nothing else moves, the invariant holds |
| LinkNode.UnlinkPartition | linked_ptr.hpp:103-107 | after unlinking, the handle is a ring of its own and its old ring lost exactly this handle; other rings are unchanged |
| LinkNode.UnlinkDescribed | linked_ptr.hpp:103-107 | the links after unlinking form exactly the rings of `UnlinkLayout` |
| LinkNode.ResetSound | linked_ptr.hpp:98-110 | `reset(p)` keeps the invariant, stores `p`, and leaves the handle alone whenever `p` differed from the stored pointer |
| LinkNode.ResetDescribed | linked_ptr.hpp:98-110 | `reset(p)`: nothing changes when `p` is already stored; otherwise the handle is a ring of its own holding `p`; a shared handle's old ring loses exactly this handle (size minus one, multiset minus the handle) and keeps its pointer; other handles keep their pointers and other rings are unchanged |
| LinkNode.CopyInitSound | linked_ptr.hpp:48-63 | copy and converting construction keep the invariant; from non-null they place the new handle right after the source, from null they leave it alone |
| LinkNode.CopyInitDescribed | linked_ptr.hpp:48-63 | from a non-null source, the new handle joins the source's ring, which grows by exactly that handle; from a null source, it is a ring of one; every other handle keeps its pointer |
| LinkNode.CopyInitLinkDescribed | linked_ptr.hpp:48-63 | from a non-null source, the links after construction form the source's ring with the new handle inserted, and that ring grows by exactly the new handle |
| LinkNode.AssignSound | linked_ptr.hpp:71-89 | handle assignment keeps the invariant; afterwards both handles hold the source's pointer; when the pointers differed and the source is non-null, the target sits right after the source; other handles keep their pointers |
| LinkNode.AssignDescribed | linked_ptr.hpp:71-89 | assignment is a no-op when the pointers are equal; otherwise the target leaves its ring and, for a non-null source, joins the source's ring, which grows by exactly the target; for a null source the target is alone |
| LinkNode.AssignLinkDescribed | linked_ptr.hpp:71-89 | when the pointers differ and the source is non-null, the target's `reset` followed by `link` leaves the target in the source's ring, which grows by exactly the target |
| LinkNode.UniqueIffAlone | linked_ptr.hpp:155-157 | `unique()` (`next == this`) holds exactly when the handle's ring has one member, and exactly when `previous == this` |
| LinkNode.Iter | linked_ptr.hpp:147-153 | following `next` any number of times from a slot stays inside the arena |
| LinkNode.IterWalksRing | linked_ptr.hpp:147-153 | following `next` `k` times from `h` reaches the member `k` places after `h` in its ring |
| LinkNode.RingSizeIsPeriod | linked_ptr.hpp:147-153 | the walk of `use_count()` first returns to the start after exactly as many steps as the ring has members |
| LinkNode.RingSharesPointer | linked_ptr.hpp:48-53 | every handle reached by following `next` holds the same pointer as the start |
| LinkNode.SameRingSamePointer | linked_ptr.hpp:48-53 | two handles of one ring hold the same pointer |
| LinkNode.RingHoldsOnePointer | linked_ptr.hpp:142-144 | `get()` returns the same pointer on every handle of one ring |
| LinkNode.ExchangeSound | linked_ptr.hpp:117-130 | the reference swap (the two handles exchange every role) keeps the invariant |
| LinkNode.ExchangeTwice | linked_ptr.hpp:117-130 | the reference swap applied twice gives back the original arena |
| LinkNode.ExchangeDescribed | linked_ptr.hpp:117-130 | after the reference swap the links form the exchanged rings, and every handle's ring has the size of the ring of the handle it was exchanged with |
| LinkNode.SwapUniquesIsExchange | linked_ptr.hpp:182-185 | for two singletons, exchanging the pointers alone is the reference swap: no links change |
| LinkNode.SwapUniqueNonUniqueIsExchange | linked_ptr.hpp:170-180 | `swap_unique_non_unique` equals the reference swap |
| LinkNode.SwapUniqueNonUniqueRewired | linked_ptr.hpp:170-180 | the six writes of `swap_unique_non_unique` change only the unique handle, the shared one and the shared one's two old neighbours, which now point to the unique handle |
| LinkNode.SwapNonUniquesRewired | linked_ptr.hpp:187-194 | two shared handles with different pointers lie in different rings, and the five `std::swap`s rewire exactly the two handles and their four neighbours: each neighbour now points to the other handle |
| LinkNode.SwapNonUniquesIsExchange | linked_ptr.hpp:187-194 | the five `std::swap`s of `swap_non_uniques` equal the reference swap for two handles of different rings |
| LinkNode.SwapIsExchange | linked_ptr.hpp:117-130 | when the pointers differ, the four-case `swap` equals the reference swap |
| LinkNode.SwapUniqueNonUniqueTakesPlace | linked_ptr.hpp:170-180 | the unique handle takes over the other's exact ring position (its neighbours now point to it), the other becomes alone, the pointers are exchanged |
| LinkNode.SwapDescribed | linked_ptr.hpp:117-130 | `swap` does nothing when the pointers are equal; otherwise the handles exchange pointers, ring sizes and uniqueness, the invariant holds, and every other handle keeps its pointer and its ring size |
| LinkNode.SwapTwice | linked_ptr.hpp:117-130 | swapping the same two handles twice restores the whole arena: pointers, links, `use_count()` and `unique()` |
| LinkNode.Released | linked_ptr.h:113-126 | `reset(p)` releases at most one pointer, the old stored one, and does so exactly when `p` differs from it and the handle is unique |
| LinkNode.ResetEach | linked_ptr.h:113-130 | a sequence of resets keeps the invariant |
| LinkNode.ResetLeavesRest | linked_ptr.h:119-123 | a member that is not the last one releases nothing when reset, and the remaining members still form one ring with the same pointer |
| LinkNode.LastOwnerReleases | linked_ptr.h:113-126 | resetting or destroying every member of one ring, in any order, releases the ring's pointer exactly once: the release log is that one pointer |
| LinkNode.OnlyLastOwnerReleases | linked_ptr.h:113-126 | of those resets, all but the last release nothing, so the release happens at the last member |
| LinkNode.NaiveSwapBreaksRings | linked_ptr.h:133-137 | the member-wise swap leaves the arena broken whenever the two handles are distinct and hold different pointers |
| LinkNode.NaiveSwapOfTwoSingletons | linked_ptr.h:133-137 | two singletons holding 10 and 20 become a ring of two holding both pointers; destroying both then releases 10 only |
| LinkNode.NaiveSwapOfRingOfTwo | linked_ptr.h:133-137 | the two members of one ring of two, holding 10, become two well-formed singletons that both hold 10; destroying both releases 10 twice, where the ring-aware `Swap` changes nothing and destroying both releases 10 once |
| LinkNode.InitValid | linked_ptr.hpp:38-45 | constructing a handle in dead storage keeps the arena invariant (sound links, rings as described, dead storage empty); the new handle's ring has one member |
| LinkNode.CopyInitValid | linked_ptr.hpp:48-63 | copy construction into dead storage from a live handle keeps the arena invariant |
| LinkNode.ResetValid | linked_ptr.hpp:98-110 | `reset(p)` on a live handle keeps the arena invariant |
| LinkNode.DestroyValid | linked_ptr.hpp:66-68 | after the destructor's `reset()` the handle is a singleton holding null, so the slot may become dead storage and the arena invariant holds |
| LinkNode.AssignValid | linked_ptr.hpp:71-89 | assignment between live handles keeps the arena invariant |
| LinkNode.SwapValid | linked_ptr.hpp:117-130 | `swap` of two live handles keeps the arena invariant and leaves dead storage alone |
| LinkedPtr.Deleted | linked_ptr.hpp:98-102 | `delete` gets the old pointer exactly when the reset releases and that pointer is not null |
| LinkedPtr.Arena.Link | linked_ptr.hpp:28-34 | the four field writes of `link` compute `LinkAfter` |
| LinkedPtr.Arena.Init | linked_ptr.hpp:38-40 | the default constructor makes a live handle holding null whose ring has one member |
| LinkedPtr.Arena.InitRaw | linked_ptr.hpp:42-45 | construction from `p` makes a live handle holding `p` whose ring has one member |
| LinkedPtr.Arena.InitCopy | linked_ptr.hpp:48-63 | copy and converting construction compute `CopyInit` and its layout and keep the arena valid |
| LinkedPtr.Arena.Destroy | linked_ptr.hpp:66-68 | the destructor is `reset()`; it deletes only when the handle was the last owner of a non-null pointer, and the slot is dead again |
| LinkedPtr.Arena.ResetNull | linked_ptr.hpp:112-114 | `reset()` is `reset(nullptr)` |
| LinkedPtr.Arena.Reset | linked_ptr.hpp:98-110 | `reset(p)` computes `Reset` and its layout, keeps the arena valid, and logs a `delete` of the old pointer only when it released a non-null one |
| LinkedPtr.Arena.Assign | linked_ptr.hpp:71-89 | handle assignment computes `Assign` and its layout; it deletes only through its `reset` |
| LinkedPtr.Arena.AssignRaw | linked_ptr.hpp:91-95 | raw-pointer assignment is exactly `reset(p)` |
| LinkedPtr.Arena.SwapUniques | linked_ptr.hpp:182-185 | computes `SwapUniques` |
| LinkedPtr.Arena.SwapUniqueNonUnique | linked_ptr.hpp:170-180 | the field writes compute `SwapUniqueNonUnique` |
| LinkedPtr.Arena.SwapNonUniques | linked_ptr.hpp:187-194 | the five `std::swap`s compute `SwapNonUniques`, also when two of the swapped cells coincide |
| LinkedPtr.Arena.SwapCases | linked_ptr.hpp:119-129 | the dispatch on the uniqueness of the two handles computes `Swap` |
| LinkedPtr.Arena.Swap | linked_ptr.hpp:117-130 | `swap` computes `Swap` and its layout, keeps the arena valid and deletes nothing |
| LinkedPtr.Arena.UseCount | linked_ptr.hpp:147-153 | the counting loop returns the size of the handle's ring, the first number of `next` steps that leads back to the handle |
| LinkedPtr.Arena.Unique | linked_ptr.hpp:155-157 | true exactly when the ring has one member (so exactly when `use_count()` is 1) |
| LinkedPtr.Arena.Get | linked_ptr.hpp:142-144 | the stored pointer, shared by every handle of the ring |
| LinkedPtr.Arena.IsSet | linked_ptr.hpp:160-162 | true exactly when the handle holds a non-null pointer; a handle that holds null is alone |
| LinkedPtr.Arena.IsNull | linked_ptr.hpp:164-166 | true exactly when the handle holds null; such a handle is alone |
| LinkedPtr.SwapLoneWithShared | linked_ptr.hpp:117-130 | a client run on a fresh arena: a lone handle holding `p` is swapped with one of two handles sharing `q`; the pointers are exchanged, the lone handle's `use_count()` goes from 1 to 2, the other's is 1, the arena stays valid and nothing is deleted |
| LinkedPtrDeleter.DeleterArena.Link | linked_ptr.h:185-192 | the four field writes of `link` compute `LinkAfter` |
| LinkedPtrDeleter.DeleterArena.Init | linked_ptr.h:55-57 | the default constructor makes a live handle holding null whose ring has one member |
| LinkedPtrDeleter.DeleterArena.InitRaw | linked_ptr.h:59-62 | construction from `p` makes a live handle holding `p` whose ring has one member |
| LinkedPtrDeleter.DeleterArena.InitCopy | linked_ptr.h:65-79 | copy and converting construction compute `CopyInit` and its layout and keep the arena valid |
| LinkedPtrDeleter.DeleterArena.Destroy | linked_ptr.h:82-84 | the destructor is `reset()`, logging a `Deleter` call exactly when `Released` says so; the slot is dead again |
| LinkedPtrDeleter.DeleterArena.ResetNull | linked_ptr.h:128-130 | `reset()` is `reset(nullptr)` |
| LinkedPtrDeleter.DeleterArena.Reset | linked_ptr.h:113-126 | `reset(p)` computes `Reset`, keeps the arena valid, and calls the `Deleter` once on the old pointer, null included, exactly when the handle was unique and `p` differed |
| LinkedPtrDeleter.DeleterArena.Assign | linked_ptr.h:87-104 | handle assignment computes `Assign` and its layout; the `Deleter` is called only through its `reset` |
| LinkedPtrDeleter.DeleterArena.AssignRaw | linked_ptr.h:106-110 | raw-pointer assignment is exactly `reset(p)` |
| LinkedPtrDeleter.DeleterArena.Swap | linked_ptr.h:133-137 | the member-wise swap computes `NaiveSwap` and, for distinct handles holding different pointers, leaves the arena broken |
| LinkedPtrDeleter.DeleterArena.UseCount | linked_ptr.h:154-162 | the counting loop returns the size of the handle's ring, the first number of `next` steps that leads back to the handle |
| LinkedPtrDeleter.DeleterArena.Unique | linked_ptr.h:164-166 | true exactly when the ring has one member |
| LinkedPtrDeleter.DeleterArena.Get | linked_ptr.h:149-151 | the stored pointer, shared by every handle of the ring |
| LinkedPtrDeleter.DeleterArena.IsSet | linked_ptr.h:171-175 | the safe-bool conversion: true exactly when the handle holds a non-null pointer; a handle that holds null is alone |
| LinkedPtrDeleter.DeleterArena.IsNull | linked_ptr.h:177-179 | true exactly when the handle holds null; such a handle is alone |
| LinkedPtrDeleter.SharedOwnersReleaseOnce | linked_ptr.h:113-126 | a client run on a fresh arena: a handle holding `p` and its copy share a ring (`use_count()` 2); destroying the first calls no `Deleter` and leaves `use_count()` 1; destroying the copy calls the `Deleter` once, on `p` |

## Left out

- Releasing memory: `delete` (linked_ptr.hpp:102) and `default_deleter` with its `delete[]` forms for `void` and `const void` (linked_ptr.h:10-33) are the ghost logs `freed` and `calls`.
- Templates and covariance: `linked_ptr<U>` to `linked_ptr<T>`, `const_cast` and the `static_cast` to the base are one pointer identity, so the plain and converting constructors and assignments are one method each.
- `operator*` and `operator->`: dereferencing is outside the ownership structure, and dereferencing null is undefined behaviour.
- The relational operators and `make_linked` (linked_ptr.hpp:198-231): comparisons of `get()` and a wrapper around the raw-pointer constructor.
- The member-pointer form of the safe-bool conversion (linked_ptr.h:169-175) is modelled only as "holds a non-null pointer".
- Two handles built from the same raw pointer (linked_ptr.hpp:42-45 does not check) form two rings that each release it; release once is guaranteed per ring, not per resource.
- Handles live in an arena of slots whose number is their address; using a destroyed handle is excluded by the `live` precondition.
- `use_count()` returns a C++ `int`; the count is an unbounded integer, since a ring of more than 2^31 handles is out of reach of the program.
- Concurrency: the code has no synchronisation and none is intended.
- LinkNode.LastOwnerReleases: covers a sequence that resets every member of one ring once, each to a pointer other than the ring's own; a reset to the ring's own pointer changes nothing, and copies into the ring in between are not covered.
- LinkNode.OnlyLastOwnerReleases: covers the same sequences as LinkNode.LastOwnerReleases and no others.

## Findings

| source | as written | input that shows it | evidently intended | confidence | as-written member | corrected member |
|---|---|---|---|---|---|---|
| linked_ptr.h:133-137 | `swap` exchanges the two handles' own `previous`, `next` and stored pointer and does not re-point their neighbours | two singletons holding pointers 10 and 20: afterwards each one's `next` and `previous` is the other, a ring of two holding two different pointers; destroying the first releases nothing and destroying the second releases 10 only, so 20 leaks | the four-case swap of linked_ptr.hpp:117-130, which re-points the neighbours and keeps both rings well formed | high; not executed | LinkNode.NaiveSwapBreaksRings | LinkNode.SwapDescribed |
| linked_ptr.h:133-137 | the same member-wise `swap`, applied to the two members of one ring of two | a ring of two handles holding pointer 10: afterwards each handle's `next` and `previous` is itself, two well-formed singletons that both hold 10; destroying each one releases 10, so the `Deleter` runs twice on the same pointer | the four-case swap of linked_ptr.hpp:117-130, which does nothing when the pointers are equal, so destroying both handles releases 10 once | high; not executed | LinkNode.NaiveSwapOfRingOfTwo | LinkNode.SwapDescribed |

=== FILE: LinkNode.dfy ===
/**
  The intrusive ring that every linked_ptr handle belongs to, as values.

  An arena holds handle slots 0..n-1. For slot h, `next[h]` and `prev[h]` are the
  slots its `next` and `previous` fields point to, and `stored[h]` is its stored
  pointer, an opaque identity in which 0 stands for nullptr. Every operation
  below rewrites these sequences in the order the C++ code writes the fields,
  so aliasing between the cells it touches is modelled as it happens.

  `Layout` is the ghost description of the rings: every ring is a sequence of
  slots in `next` order, and every slot knows its ring (`rid`) and its position
  in it (`pos`).
*/
module LinkNode {

  /** The pointer identity of nullptr. */
  const NULL: int := 0

  datatype Links = Links(next: seq<int>, prev: seq<int>, stored: seq<int>)

  datatype Layout = Layout(rings: seq<seq<int>>, rid: seq<int>, pos: seq<int>)

  predicate Slot(l: Links, h: int) {
    0 <= h < |l.next|
  }

  /** All three sequences cover the same slots and every link names a slot. */
  ghost predicate Shaped(l: Links) {
    && |l.prev| == |l.next| && |l.stored| == |l.next|
    && forall h :: 0 <= h < |l.next| ==> 0 <= l.next[h] < |l.next| && 0 <= l.prev[h] < |l.next|
  }

  /**
    The invariant at slot `h`: `next` and `previous` are mutual inverses there,
    its successor holds the same stored pointer (so a whole ring does), and a
    handle that is not alone in its ring does not hold null.
  */
  ghost predicate LinkedAt(l: Links, h: int)
    requires Shaped(l) && Slot(l, h)
  {
    && l.prev[l.next[h]] == h && l.next[l.prev[h]] == h
    && l.stored[l.next[h]] == l.stored[h]
    && (l.next[h] != h ==> l.stored[h] != NULL)
  }

  /** The invariant the public operations of a linked_ptr keep, at every slot. */
  ghost predicate Sound(l: Links) {
    Shaped(l) && forall h :: 0 <= h < |l.next| ==> LinkedAt(l, h)
  }

  /** `unique()`: the handle is the only member of its ring. */
  predicate Unique(l: Links, h: int)
    requires Slot(l, h)
    ensures Sound(l) ==> (Unique(l, h) <==> l.prev[h] == h)
  {
    assert Sound(l) ==> LinkedAt(l, h);
    l.next[h] == h
  }

  // ---------------------------------------------------------------------------
  // The link rewriting of linked_ptr.hpp / linked_ptr.h
  // ---------------------------------------------------------------------------

  /** Slot `x` becomes a singleton holding `p` (the raw-pointer and default constructors). */
  function Singleton(l: Links, x: int, p: int): (r: Links)
    requires Shaped(l) && Slot(l, x)
    ensures Shaped(r) && |r.next| == |l.next| && r.stored == l.stored[x := p]
  {
    Links(l.next[x := x], l.prev[x := x], l.stored[x := p])
  }

  /** `x.link(s)`: splice `x` into `s`'s ring directly after `s`. */
  function LinkAfter(l: Links, x: int, s: int): (r: Links)
    requires Shaped(l) && Slot(l, x) && Slot(l, s)
    ensures Shaped(r) && |r.next| == |l.next| && r.stored == l.stored
  {
    var next1 := l.next[x := l.next[s]];   // next = other.next
    var prev1 := l.prev[next1[x] := x];    // next->previous = this
    var prev2 := prev1[x := s];            // previous = &other
    var next2 := next1[s := x];            // other.next = this
    Links(next2, prev2, l.stored)
  }

  /** The non-unique branch of `reset`: join `x`'s neighbours and make `x` a singleton. */
  function Unlink(l: Links, x: int): (r: Links)
    requires Shaped(l) && Slot(l, x)
    ensures Shaped(r) && |r.next| == |l.next| && r.stored == l.stored
  {
    var next1 := l.next[l.prev[x] := l.next[x]];   // previous->next = next
    var prev1 := l.prev[next1[x] := l.prev[x]];    // next->previous = previous
    var next2 := next1[x := x];                    // next = this
    var prev2 := prev1[x := x];                    // previous = next
    Links(next2, prev2, l.stored)
  }

  /**
    Whether `reset(p)` on `x` reaches the release step (`delete` or the `Deleter`);
    a helper of `Released`, whose contract states this condition.
  */
  predicate ReleaseRuns(l: Links, x: int, p: int)
    requires Slot(l, x) && |l.stored| == |l.next|
  {
    p != l.stored[x] && l.next[x] == x
  }

  /** The links after `x.reset(p)`; what is released is decided by `ReleaseRuns`. */
  function Reset(l: Links, x: int, p: int): (r: Links)
    requires Shaped(l) && Slot(l, x)
    ensures Shaped(r) && |r.next| == |l.next| && r.stored == l.stored[x := p]
  {
    if p == l.stored[x] then l
    else if Unique(l, x) then l.(stored := l.stored[x := p])
    else
      var u := Unlink(l, x);
      u.(stored := u.stored[x := p])
  }

  /** Copy and converting construction of the fresh handle `x` from `s`. */
  function CopyInit(l: Links, x: int, s: int): (r: Links)
    requires Shaped(l) && Slot(l, x) && Slot(l, s)
    ensures Shaped(r) && |r.next| == |l.next| && r.stored == l.stored[x := l.stored[s]]
  {
    if l.stored[s] != NULL then LinkAfter(l.(stored := l.stored[x := l.stored[s]]), x, s)
    else Singleton(l, x, l.stored[s])
  }

  /** Handle-to-handle assignment `x = s`. */
  function Assign(l: Links, x: int, s: int): (r: Links)
    requires Shaped(l) && Slot(l, x) && Slot(l, s)
    ensures Shaped(r) && |r.next| == |l.next| && r.stored == l.stored[x := l.stored[s]]
  {
    if l.stored[s] == l.stored[x] then l
    else
      var r := Reset(l, x, l.stored[s]);
      if l.stored[s] != NULL then LinkAfter(r, x, s) else r
  }

  // ---------------------------------------------------------------------------
  // swap (linked_ptr.hpp) and its reference definition
  // ---------------------------------------------------------------------------

  /** `std::swap` of two cells of `s`. */
  function SwapAt(s: seq<int>, i: int, j: int): (r: seq<int>)
    requires 0 <= i < |s| && 0 <= j < |s|
  {
    s[i := s[j]][j := s[i]]
  }

  /** `swap_uniques`: two singletons only exchange their pointers. */
  function SwapUniques(l: Links, a: int, b: int): (r: Links)
    requires Shaped(l) && Slot(l, a) && Slot(l, b)
    ensures Shaped(r) && |r.next| == |l.next| && r.stored == SwapAt(l.stored, a, b)
  {
    l.(stored := SwapAt(l.stored, a, b))
  }

  /** `swap_unique_non_unique(f, s)`: the singleton `f` takes over `s`'s place in its ring. */
  function SwapUniqueNonUnique(l: Links, f: int, s: int): (r: Links)
    requires Shaped(l) && Slot(l, f) && Slot(l, s)
    ensures Shaped(r) && |r.next| == |l.next| && r.stored == SwapAt(l.stored, f, s)
  {
    var stored1 := SwapAt(l.stored, f, s);
    var nextNonUnique := l.next[s];
    var prevNonUnique := l.prev[s];
    var next1 := l.next[f := nextNonUnique];   // first->next = next_nonunique
    var prev1 := l.prev[f := prevNonUnique];   // first->previous = prev_nonunique
    var prev2 := prev1[nextNonUnique := f];    // next_nonunique->previous = first
    var next2 := next1[prevNonUnique := f];    // prev_nonunique->next = first
    var prev3 := prev2[s := s];                // second->previous = second
    var next3 := next2[s := prev3[s]];         // second->next = second->previous
    Links(next3, prev3, stored1)
  }

  /** `swap_non_uniques(a, b)`: `a` and `b` trade places across their two rings. */
  function SwapNonUniques(l: Links, a: int, b: int): (r: Links)
    requires Shaped(l) && Slot(l, a) && Slot(l, b)
    ensures Shaped(r) && |r.next| == |l.next| && r.stored == SwapAt(l.stored, a, b)
  {
    var stored1 := SwapAt(l.stored, a, b);
    var prev1 := SwapAt(l.prev, l.next[a], l.next[b]);   // swap(first->next->previous, second->next->previous)
    var next1 := SwapAt(l.next, prev1[a], prev1[b]);     // swap(first->previous->next, second->previous->next)
    var next2 := SwapAt(next1, a, b);                    // swap(first->next, second->next)
    var prev2 := SwapAt(prev1, a, b);                    // swap(first->previous, second->previous)
    Links(next2, prev2, stored1)
  }

  /** `a.swap(b)`: the four cases by uniqueness, nothing when the pointers are equal. */
  function Swap(l: Links, a: int, b: int): (r: Links)
    requires Shaped(l) && Slot(l, a) && Slot(l, b)
    ensures Shaped(r) && |r.next| == |l.next| && r.stored == SwapAt(l.stored, a, b)
  {
    if l.stored[a] == l.stored[b] then l
    else if Unique(l, a) && Unique(l, b) then SwapUniques(l, a, b)
    else if Unique(l, a) && !Unique(l, b) then SwapUniqueNonUnique(l, a, b)
    else if !Unique(l, a) && Unique(l, b) then SwapUniqueNonUnique(l, b, a)
    else SwapNonUniques(l, a, b)
  }

  /** The transposition of `a` and `b`. */
  function Transpose(a: int, b: int, h: int): int {
    if h == a then b else if h == b then a else h
  }

  /**
    Reference definition of a swap: the arena in which `a` and `b` have exchanged
    every role, i.e. their pointers, their ring positions and their neighbours.
  */
  function Exchange(l: Links, a: int, b: int): (r: Links)
    requires Shaped(l) && Slot(l, a) && Slot(l, b)
    ensures Shaped(r) && |r.next| == |l.next|
  {
    var n := |l.next|;
    Links(seq(n, h requires 0 <= h < n => Transpose(a, b, l.next[Transpose(a, b, h)])),
          seq(n, h requires 0 <= h < n => Transpose(a, b, l.prev[Transpose(a, b, h)])),
          seq(n, h requires 0 <= h < n => l.stored[Transpose(a, b, h)]))
  }

  // ---------------------------------------------------------------------------
  // The invariant is kept
  // ---------------------------------------------------------------------------

  lemma SingletonSound(l: Links, x: int, p: int)
    requires Sound(l) && Slot(l, x) && Unique(l, x)
    ensures Sound(Singleton(l, x, p))
  {
    var r := Singleton(l, x, p);
    forall h | 0 <= h < |l.next| ensures LinkedAt(r, h) {
      assert LinkedAt(l, h);
      if h != x {
        assert l.next[h] != x && l.prev[h] != x by { assert LinkedAt(l, x); }
      }
    }
  }

  /**
    `link` from a handle holding non-null `p`: `x` now holds `p` and sits directly
    after `s`; the old successor of `s` points back to `x`; nothing else moves.
  */
  lemma LinkAfterSound(l: Links, x: int, s: int)
    requires Sound(l) && Slot(l, x) && Slot(l, s) && x != s && Unique(l, x)
    requires l.stored[x] == l.stored[s] != NULL
    ensures var r := LinkAfter(l, x, s);
      && Sound(r) && r.stored == l.stored
      && r.next[s] == x && r.prev[x] == s
      && r.next[x] == l.next[s] && r.prev[l.next[s]] == x
      && (forall h :: Slot(l, h) && h != x && h != s ==> r.next[h] == l.next[h])
      && (forall h :: Slot(l, h) && h != x && h != l.next[s] ==> r.prev[h] == l.prev[h])
  {
    var t := l.next[s];
    var r := LinkAfter(l, x, s);
    assert LinkedAt(l, x) && LinkedAt(l, s) && LinkedAt(l, t);
    assert t != x && l.prev[x] == x && l.prev[t] == s;
    assert r.next == l.next[x := t][s := x] && r.prev == l.prev[t := x][x := s];
    forall h | 0 <= h < |l.next|
      ensures LinkedAt(r, h)
    {
      assert LinkedAt(l, h);
      if h != s && h != x {
        assert l.next[h] != t && l.next[h] != x;
      }
      if h != x && h != t {
        assert l.prev[h] != s && l.prev[h] != x;
      }
    }
  }

  /**
    The non-unique branch of `reset`: the neighbours of `x` are joined, `x` is a
    singleton and nothing else moves.
  */
  lemma UnlinkSound(l: Links, x: int)
    requires Sound(l) && Slot(l, x) && !Unique(l, x)
    ensures var r := Unlink(l, x);
      && Sound(r) && r.stored == l.stored
      && r.next[l.prev[x]] == l.next[x] && r.prev[l.next[x]] == l.prev[x]
      && r.next[x] == x && r.prev[x] == x
      && (forall h :: Slot(l, h) && h != x && h != l.prev[x] ==> r.next[h] == l.next[h])
      && (forall h :: Slot(l, h) && h != x && h != l.next[x] ==> r.prev[h] == l.prev[h])
  {
    var u, v := l.prev[x], l.next[x];
    var r := Unlink(l, x);
    assert LinkedAt(l, x) && LinkedAt(l, u) && LinkedAt(l, v);
    assert u != x && v != x && l.next[u] == x && l.prev[v] == x;
    assert r.next == l.next[u := v][x := x] && r.prev == l.prev[v := u][x := x];
    forall h | 0 <= h < |l.next|
      ensures LinkedAt(r, h)
    {
      assert LinkedAt(l, h);
      if h != u && h != x {
        assert l.next[h] != x && l.next[h] != v;
      }
      if h != v && h != x {
        assert l.prev[h] != x && l.prev[h] != u;
      }
    }
  }

  /** A singleton may hold any pointer. */
  lemma StoreSound(l: Links, x: int, p: int)
    requires Sound(l) && Slot(l, x) && Unique(l, x)
    ensures Sound(l.(stored := l.stored[x := p]))
  {
    var r := l.(stored := l.stored[x := p]);
    forall h | 0 <= h < |l.next| ensures LinkedAt(r, h) {
      assert LinkedAt(l, h);
      if h != x {
        assert l.next[h] != x by { assert LinkedAt(l, x); }
      }
    }
  }

  lemma ResetSound(l: Links, x: int, p: int)
    requires Sound(l) && Slot(l, x)
    ensures var r := Reset(l, x, p);
      && Sound(r) && r.stored[x] == p
      && (p != l.stored[x] ==> Unique(r, x))
      && (forall h :: Slot(l, h) && h != x ==> r.stored[h] == l.stored[h])
      && (forall h :: Slot(l, h) && h != x && Unique(l, h) ==> Unique(r, h))
  {
    if p != l.stored[x] {
      if Unique(l, x) {
        StoreSound(l, x, p);
      } else {
        UnlinkSound(l, x);
        StoreSound(Unlink(l, x), x, p);
        forall h | Slot(l, h) && h != x && Unique(l, h) ensures Unique(Reset(l, x, p), h) {
          assert LinkedAt(l, h) && LinkedAt(l, x);
        }
      }
    }
  }

  lemma CopyInitSound(l: Links, x: int, s: int)
    requires Sound(l) && Slot(l, x) && Slot(l, s) && x != s && Unique(l, x)
    ensures var r := CopyInit(l, x, s);
      && Sound(r) && r.stored[x] == l.stored[s]
      && (l.stored[s] != NULL ==> r.next[s] == x && r.prev[x] == s)
      && (l.stored[s] == NULL ==> Unique(r, x))
  {
    if l.stored[s] != NULL {
      StoreSound(l, x, l.stored[s]);
      LinkAfterSound(l.(stored := l.stored[x := l.stored[s]]), x, s);
    } else {
      SingletonSound(l, x, l.stored[s]);
    }
  }

  lemma AssignSound(l: Links, x: int, s: int)
    requires Sound(l) && Slot(l, x) && Slot(l, s)
    ensures var r := Assign(l, x, s);
      && Sound(r) && r.stored[x] == l.stored[s] && r.stored[s] == l.stored[s]
      && (l.stored[s] != l.stored[x] && l.stored[s] != NULL ==> r.next[s] == x && r.prev[x] == s)
      && (forall h :: Slot(l, h) && h != x ==> r.stored[h] == l.stored[h])
      && (forall h :: Slot(l, h) && h != x && h != s && Unique(l, h) ==> Unique(r, h))
  {
    if l.stored[s] != l.stored[x] {
      ResetSound(l, x, l.stored[s]);
      if l.stored[s] != NULL {
        LinkAfterSound(Reset(l, x, l.stored[s]), x, s);
      }
    }
  }

  lemma ExchangeSound(l: Links, a: int, b: int)
    requires Sound(l) && Slot(l, a) && Slot(l, b)
    ensures Sound(Exchange(l, a, b))
  {
    var r := Exchange(l, a, b);
    forall h | 0 <= h < |l.next| ensures LinkedAt(r, h) {
      var g := Transpose(a, b, h);
      assert LinkedAt(l, g);
      assert Transpose(a, b, Transpose(a, b, l.next[g])) == l.next[g];
      assert Transpose(a, b, Transpose(a, b, l.prev[g])) == l.prev[g];
    }
  }

  /** Exchanging the same two handles twice gives back the arena. */
  lemma ExchangeTwice(l: Links, a: int, b: int)
    requires Shaped(l) && Slot(l, a) && Slot(l, b)
    ensures Exchange(Exchange(l, a, b), a, b) == l
  {
    var e := Exchange(l, a, b);
    var r := Exchange(e, a, b);
    forall h | 0 <= h < |l.next|
      ensures r.next[h] == l.next[h] && r.prev[h] == l.prev[h] && r.stored[h] == l.stored[h]
    {
      var g := Transpose(a, b, h);
      assert Transpose(a, b, g) == h;
      assert e.next[g] == Transpose(a, b, l.next[h]) && e.prev[g] == Transpose(a, b, l.prev[h]);
    }
    assert r.next == l.next;
    assert r.prev == l.prev;
    assert r.stored == l.stored;
  }

  /**
    The four-case swap of linked_ptr.hpp does exactly what the reference
    definition says: when the pointers differ, `a` and `b` exchange every role.
  */
  lemma SwapIsExchange(l: Links, a: int, b: int)
    requires Sound(l) && Slot(l, a) && Slot(l, b) && l.stored[a] != l.stored[b]
    ensures Swap(l, a, b) == Exchange(l, a, b)
  {
    if Unique(l, a) && Unique(l, b) {
      SwapUniquesIsExchange(l, a, b);
    } else if Unique(l, a) && !Unique(l, b) {
      SwapUniqueNonUniqueIsExchange(l, a, b);
    } else if !Unique(l, a) && Unique(l, b) {
      SwapUniqueNonUniqueIsExchange(l, b, a);
      ExchangeSymmetric(l, b, a);
    } else {
      SwapNonUniquesIsExchange(l, a, b);
    }
  }

  lemma ExchangeSymmetric(l: Links, a: int, b: int)
    requires Shaped(l) && Slot(l, a) && Slot(l, b)
    ensures Exchange(l, a, b) == Exchange(l, b, a)
  {
    forall h | 0 <= h < |l.next| ensures Transpose(a, b, h) == Transpose(b, a, h) { }
    var e, e' := Exchange(l, a, b), Exchange(l, b, a);
    assert e.next == e'.next && e.prev == e'.prev && e.stored == e'.stored;
  }

  lemma SwapUniquesIsExchange(l: Links, a: int, b: int)
    requires Sound(l) && Slot(l, a) && Slot(l, b) && l.stored[a] != l.stored[b]
    requires Unique(l, a) && Unique(l, b)
    ensures SwapUniques(l, a, b) == Exchange(l, a, b)
  {
    var e := Exchange(l, a, b);
    assert LinkedAt(l, a) && LinkedAt(l, b);
    forall h | 0 <= h < |l.next| ensures l.next[h] == e.next[h] && l.prev[h] == e.prev[h] {
      assert LinkedAt(l, h);
    }
    assert l.next == e.next;
    assert l.prev == e.prev;
  }

  lemma SwapNonUniquesIsExchange(l: Links, a: int, b: int)
    requires Sound(l) && Slot(l, a) && Slot(l, b) && l.stored[a] != l.stored[b]
    requires !Unique(l, a) && !Unique(l, b)
    ensures SwapNonUniques(l, a, b) == Exchange(l, a, b)
  {
    var r, e := SwapNonUniques(l, a, b), Exchange(l, a, b);
    SwapNonUniquesRewired(l, a, b);
    forall h | 0 <= h < |l.next| ensures r.prev[h] == e.prev[h] && r.next[h] == e.next[h] {
      assert LinkedAt(l, h);
    }
    assert r.next == e.next && r.prev == e.prev && r.stored == e.stored;
  }

  /**
    `swap_non_uniques` rewires `a`, `b` and their four neighbours and nothing
    else; the two rings are distinct because they hold different pointers.
  */
  lemma SwapNonUniquesRewired(l: Links, a: int, b: int)
    requires Sound(l) && Slot(l, a) && Slot(l, b) && l.stored[a] != l.stored[b]
    requires !Unique(l, a) && !Unique(l, b)
    ensures var r, na, nb, pa, pb := SwapNonUniques(l, a, b), l.next[a], l.next[b], l.prev[a], l.prev[b];
      && a != na && a != pa && b != nb && b != pb
      && l.prev[na] == a && l.next[pa] == a && l.prev[nb] == b && l.next[pb] == b
      && l.stored[na] == l.stored[pa] == l.stored[a] != l.stored[b] == l.stored[nb] == l.stored[pb]
      && r.prev == l.prev[na := b][nb := a][a := pb][b := pa]
      && r.next == l.next[pa := b][pb := a][a := nb][b := na]
  {
    var na, nb, pa, pb := l.next[a], l.next[b], l.prev[a], l.prev[b];
    assert LinkedAt(l, a) && LinkedAt(l, b);
    assert LinkedAt(l, na) && LinkedAt(l, nb) && LinkedAt(l, pa) && LinkedAt(l, pb);
  }

  lemma SwapUniqueNonUniqueIsExchange(l: Links, f: int, s: int)
    requires Sound(l) && Slot(l, f) && Slot(l, s) && l.stored[f] != l.stored[s]
    requires Unique(l, f) && !Unique(l, s)
    ensures SwapUniqueNonUnique(l, f, s) == Exchange(l, f, s)
  {
    var r, e := SwapUniqueNonUnique(l, f, s), Exchange(l, f, s);
    var n, p := l.next[s], l.prev[s];
    SwapUniqueNonUniqueRewired(l, f, s);
    assert LinkedAt(l, f) && LinkedAt(l, s) && LinkedAt(l, n) && LinkedAt(l, p);
    assert n != f && p != f && n != s && p != s;
    forall h | 0 <= h < |l.next| ensures r.next[h] == e.next[h] && r.prev[h] == e.prev[h] {
      assert LinkedAt(l, h);
    }
    assert r.next == e.next && r.prev == e.prev && r.stored == e.stored;
  }

  /** The six writes of `swap_unique_non_unique` as one update of each sequence. */
  lemma SwapUniqueNonUniqueRewired(l: Links, f: int, s: int)
    requires Sound(l) && Slot(l, f) && Slot(l, s) && l.stored[f] != l.stored[s]
    requires Unique(l, f) && !Unique(l, s)
    ensures var r, n, p := SwapUniqueNonUnique(l, f, s), l.next[s], l.prev[s];
      && r.next == l.next[f := n][p := f][s := s]
      && r.prev == l.prev[f := p][n := f][s := s]
  {
    assert LinkedAt(l, f) && LinkedAt(l, s);
  }

  // ---------------------------------------------------------------------------
  // Rings: the ghost layout
  // ---------------------------------------------------------------------------

  /** Every slot sits at one position of one ring, and every ring lists only such slots. */
  ghost predicate Partition(g: Layout) {
    && |g.pos| == |g.rid|
    && (forall h :: 0 <= h < |g.rid| ==>
          0 <= g.rid[h] < |g.rings| && 0 <= g.pos[h] < |g.rings[g.rid[h]]| && g.rings[g.rid[h]][g.pos[h]] == h)
    && (forall r, i :: 0 <= r < |g.rings| && 0 <= i < |g.rings[r]| ==> Listed(g, r, i))
  }

  /** The `i`-th member of ring `r` knows that it sits there. */
  ghost predicate Listed(g: Layout, r: int, i: int)
    requires 0 <= r < |g.rings| && 0 <= i < |g.rings[r]|
  {
    0 <= g.rings[r][i] < |g.rid| && 0 <= g.rings[r][i] < |g.pos| && g.rid[g.rings[r][i]] == r && g.pos[g.rings[r][i]] == i
  }

  /** The ring of `h`, as a sequence of slots in `next` order. */
  ghost function Ring(g: Layout, h: int): seq<int>
    requires Partition(g) && 0 <= h < |g.rid|
  {
    g.rings[g.rid[h]]
  }

  /** The slot after `h` in its ring. */
  ghost function Succ(g: Layout, h: int): int
    requires Partition(g) && 0 <= h < |g.rid|
  {
    var c, i := Ring(g, h), g.pos[h];
    if i + 1 < |c| then c[i + 1] else c[0]
  }

  /** The slot before `h` in its ring. */
  ghost function Pred(g: Layout, h: int): int
    requires Partition(g) && 0 <= h < |g.rid|
  {
    var c, i := Ring(g, h), g.pos[h];
    if 0 < i then c[i - 1] else c[|c| - 1]
  }

  /** `g` lists the rings that the links of `l` form. */
  ghost predicate Describes(l: Links, g: Layout) {
    && Partition(g) && |l.next| == |g.rid| && |l.prev| == |g.rid|
    && forall h :: 0 <= h < |g.rid| ==> l.next[h] == Succ(g, h) && l.prev[h] == Pred(g, h)
  }

  /** `unique()` holds exactly when the ring of the handle has one member. */
  lemma UniqueIffAlone(l: Links, g: Layout, h: int)
    requires Describes(l, g) && Slot(l, h)
    ensures Unique(l, h) <==> |Ring(g, h)| == 1
    ensures Unique(l, h) <==> l.prev[h] == h
  {
    var c, i, r := Ring(g, h), g.pos[h], g.rid[h];
    if i + 1 < |c| {
      assert Listed(g, r, i + 1);
    } else if 1 < |c| {
      assert Listed(g, r, 0);
    }
    if 0 < i {
      assert Listed(g, r, i - 1);
    } else if 1 < |c| {
      assert Listed(g, r, |c| - 1);
    }
  }

  /** The handle reached from `h` by following `next` `k` times. */
  ghost function Iter(l: Links, h: int, k: nat): (r: int)
    requires Shaped(l) && Slot(l, h)
    ensures Slot(l, r)
  {
    if k == 0 then h else l.next[Iter(l, h, k - 1)]
  }

  /** The member `k` places after `h` in its ring, for `k` up to the ring's size. */
  ghost function Around(g: Layout, h: int, k: nat): int
    requires Partition(g) && 0 <= h < |g.rid| && k <= |Ring(g, h)|
  {
    var c, i := Ring(g, h), g.pos[h];
    if i + k < |c| then c[i + k] else c[i + k - |c|]
  }

  /** Following `next` walks the ring listed by the layout. */
  lemma {:induction false} IterWalksRing(l: Links, g: Layout, h: int, k: nat)
    requires Sound(l) && Describes(l, g) && Slot(l, h) && k <= |Ring(g, h)|
    ensures Iter(l, h, k) == Around(g, h, k)
  {
    if k > 0 {
      IterWalksRing(l, g, h, k - 1);
      var c, i := Ring(g, h), g.pos[h];
      var y := Around(g, h, k - 1);
      var j := if i + k - 1 < |c| then i + k - 1 else i + k - 1 - |c|;
      assert y == c[j] && Listed(g, g.rid[h], j);
    }
  }

  /**
    `use_count()` counts the ring: following `next` from `h` first comes back to
    `h` after exactly as many steps as the ring has members.
  */
  lemma RingSizeIsPeriod(l: Links, g: Layout, h: int)
    requires Sound(l) && Describes(l, g) && Slot(l, h)
    ensures Iter(l, h, |Ring(g, h)|) == h
    ensures forall k :: 0 < k < |Ring(g, h)| ==> Iter(l, h, k) != h
  {
    var c, i := Ring(g, h), g.pos[h];
    IterWalksRing(l, g, h, |c|);
    forall k | 0 < k < |c| ensures Iter(l, h, k) != h {
      IterWalksRing(l, g, h, k);
      var j := if i + k < |c| then i + k else i + k - |c|;
      assert Listed(g, g.rid[h], j);
    }
  }

  /** Every member of a ring holds the same stored pointer. */
  lemma {:induction false} RingSharesPointer(l: Links, h: int, k: nat)
    requires Sound(l) && Slot(l, h)
    ensures l.stored[Iter(l, h, k)] == l.stored[h]
  {
    if k > 0 {
      RingSharesPointer(l, h, k - 1);
      assert LinkedAt(l, Iter(l, h, k - 1));
    }
  }

  /** In particular, two handles in one ring of the layout hold the same pointer. */
  lemma SameRingSamePointer(l: Links, g: Layout, a: int, b: int)
    requires Sound(l) && Describes(l, g) && Slot(l, a) && Slot(l, b) && g.rid[a] == g.rid[b]
    ensures l.stored[a] == l.stored[b]
  {
    var c, i := Ring(g, a), g.pos[a];
    var k := if i <= g.pos[b] then g.pos[b] - i else g.pos[b] + |c| - i;
    IterWalksRing(l, g, a, k);
    RingSharesPointer(l, a, k);
  }

  /** The layout with `a` and `b` renamed into each other. */
  ghost function ExchangeLayout(g: Layout, a: int, b: int): Layout
    requires Partition(g) && 0 <= a < |g.rid| && 0 <= b < |g.rid|
  {
    var n := |g.rid|;
    Layout(seq(|g.rings|, r requires 0 <= r < |g.rings| =>
                 seq(|g.rings[r]|, i requires 0 <= i < |g.rings[r]| => Transpose(a, b, g.rings[r][i]))),
           seq(n, h requires 0 <= h < n => g.rid[Transpose(a, b, h)]),
           seq(n, h requires 0 <= h < n => g.pos[Transpose(a, b, h)]))
  }

  lemma ExchangePartition(g: Layout, a: int, b: int)
    requires Partition(g) && 0 <= a < |g.rid| && 0 <= b < |g.rid|
    ensures Partition(ExchangeLayout(g, a, b))
  {
    var g' := ExchangeLayout(g, a, b);
    forall h | 0 <= h < |g.rid|
      ensures 0 <= g'.rid[h] < |g'.rings| && 0 <= g'.pos[h] < |g'.rings[g'.rid[h]]| && g'.rings[g'.rid[h]][g'.pos[h]] == h
    {
      var t := Transpose(a, b, h);
      assert Transpose(a, b, g.rings[g.rid[t]][g.pos[t]]) == h;
    }
    forall r, i | 0 <= r < |g'.rings| && 0 <= i < |g'.rings[r]| ensures Listed(g', r, i) {
      var y := g.rings[r][i];
      assert Listed(g, r, i);
      assert Transpose(a, b, Transpose(a, b, y)) == y;
    }
  }

  lemma ExchangeDescribed(l: Links, g: Layout, a: int, b: int)
    requires Shaped(l) && Describes(l, g) && Slot(l, a) && Slot(l, b)
    ensures Describes(Exchange(l, a, b), ExchangeLayout(g, a, b))
    ensures forall h :: Slot(l, h) ==> |Ring(ExchangeLayout(g, a, b), h)| == |Ring(g, Transpose(a, b, h))|
  {
    var e, g' := Exchange(l, a, b), ExchangeLayout(g, a, b);
    ExchangePartition(g, a, b);
    forall h | 0 <= h < |g.rid|
      ensures e.next[h] == Succ(g', h) && e.prev[h] == Pred(g', h)
      ensures |Ring(g', h)| == |Ring(g, Transpose(a, b, h))|
    {
      ExchangeDescribedAt(l, g, a, b, h);
    }
  }

  lemma ExchangeDescribedAt(l: Links, g: Layout, a: int, b: int, h: int)
    requires Shaped(l) && Describes(l, g) && Slot(l, a) && Slot(l, b) && Slot(l, h)
    requires Partition(ExchangeLayout(g, a, b))
    ensures var e, g' := Exchange(l, a, b), ExchangeLayout(g, a, b);
      && e.next[h] == Succ(g', h) && e.prev[h] == Pred(g', h)
      && |Ring(g', h)| == |Ring(g, Transpose(a, b, h))|
  {
    var e, g' := Exchange(l, a, b), ExchangeLayout(g, a, b);
    var t := Transpose(a, b, h);
    var c, c', i := Ring(g, t), Ring(g', h), g.pos[t];
    assert g'.rid[h] == g.rid[t] && g'.pos[h] == i && |c'| == |c|;
    assert l.next[t] == Succ(g, t) && l.prev[t] == Pred(g, t);
    if i + 1 < |c| { assert c'[i + 1] == Transpose(a, b, c[i + 1]); } else { assert c'[0] == Transpose(a, b, c[0]); }
    if 0 < i { assert c'[i - 1] == Transpose(a, b, c[i - 1]); } else { assert c'[|c| - 1] == Transpose(a, b, c[|c| - 1]); }
  }

  /** The neighbours of a slot are slots of its own ring. */
  lemma NeighboursInRing(g: Layout, h: int)
    requires Partition(g) && 0 <= h < |g.rid|
    ensures 0 <= Succ(g, h) < |g.rid| && g.rid[Succ(g, h)] == g.rid[h]
    ensures 0 <= Pred(g, h) < |g.rid| && g.rid[Pred(g, h)] == g.rid[h]
  {
    var c, i, r := Ring(g, h), g.pos[h], g.rid[h];
    if i + 1 < |c| { assert Listed(g, r, i + 1); } else { assert Listed(g, r, 0); }
    if 0 < i { assert Listed(g, r, i - 1); } else { assert Listed(g, r, |c| - 1); }
  }

  /** The layout after `x`, alone in its ring, is spliced into `s`'s ring directly after `s`. */
  ghost function LinkLayout(g: Layout, x: int, s: int): Layout
    requires Partition(g) && 0 <= x < |g.rid| && 0 <= s < |g.rid|
  {
    var r, c, p := g.rid[s], Ring(g, s), g.pos[s];
    Layout(g.rings[g.rid[x] := []][r := c[..p + 1] + [x] + c[p + 1..]],
           g.rid[x := r],
           seq(|g.rid|, h requires 0 <= h < |g.rid| =>
                 if h == x then p + 1 else if g.rid[h] == r && g.pos[h] > p then g.pos[h] + 1 else g.pos[h]))
  }

  /** A slot alone in its ring is the only slot of that ring. */
  lemma AloneInRing(g: Layout, x: int, h: int)
    requires Partition(g) && 0 <= x < |g.rid| && 0 <= h < |g.rid| && |Ring(g, x)| == 1
    requires g.rid[h] == g.rid[x]
    ensures h == x
  {
  }

  lemma LinkPartition(g: Layout, x: int, s: int)
    requires Partition(g) && 0 <= x < |g.rid| && 0 <= s < |g.rid| && x != s && |Ring(g, x)| == 1
    ensures var g' := LinkLayout(g, x, s);
      && Partition(g')
      && g'.rid[x] == g'.rid[s] == g.rid[s]
      && Ring(g', s) == Ring(g, s)[..g.pos[s] + 1] + [x] + Ring(g, s)[g.pos[s] + 1..]
      && (forall h :: 0 <= h < |g.rid| && h != x && g.rid[h] != g.rid[s] ==> Ring(g', h) == Ring(g, h))
  {
    var g' := LinkLayout(g, x, s);
    var r, c, p, rx := g.rid[s], Ring(g, s), g.pos[s], g.rid[x];
    assert rx != r by { if rx == r { AloneInRing(g, x, s); } }
    var c' := c[..p + 1] + [x] + c[p + 1..];
    assert g'.rings[r] == c';
    forall h | 0 <= h < |g.rid|
      ensures 0 <= g'.rid[h] < |g'.rings| && 0 <= g'.pos[h] < |g'.rings[g'.rid[h]]| && g'.rings[g'.rid[h]][g'.pos[h]] == h
    {
      if h == x {
      } else if g.rid[h] == r {
        var q := g.pos[h];
        if q <= p { assert c'[q] == c[q]; } else { assert c'[q + 1] == c[q]; }
      } else if g.rid[h] == rx {
        AloneInRing(g, x, h);
      }
    }
    forall r', i | 0 <= r' < |g'.rings| && 0 <= i < |g'.rings[r']| ensures Listed(g', r', i) {
      if r' == r {
        if i <= p {
          assert c'[i] == c[i] && Listed(g, r, i);
        } else if i > p + 1 {
          assert c'[i] == c[i - 1] && Listed(g, r, i - 1);
        }
      } else {
        assert Listed(g, r', i);
        assert g.rings[r'][i] != x;
      }
    }
  }

  /** `link` splices `x` into `s`'s ring exactly where `LinkLayout` says. */
  lemma LinkDescribed(l: Links, g: Layout, x: int, s: int)
    requires Shaped(l) && Describes(l, g) && Slot(l, x) && Slot(l, s) && x != s && Unique(l, x)
    ensures Describes(LinkAfter(l, x, s), LinkLayout(g, x, s))
  {
    UniqueIffAlone(l, g, x);
    LinkPartition(g, x, s);
    forall h | 0 <= h < |g.rid|
      ensures LinkAfter(l, x, s).next[h] == Succ(LinkLayout(g, x, s), h)
      ensures LinkAfter(l, x, s).prev[h] == Pred(LinkLayout(g, x, s), h)
    {
      LinkDescribedAt(l, g, x, s, h);
    }
  }

  /** The links of `LinkAfter` slot by slot. */
  lemma LinkAfterAt(l: Links, x: int, s: int, h: int)
    requires Shaped(l) && Slot(l, x) && Slot(l, s) && Slot(l, h)
    ensures LinkAfter(l, x, s).next[h] == if h == s then x else if h == x then l.next[s] else l.next[h]
    ensures LinkAfter(l, x, s).prev[h] == if h == x then s else if h == l.next[s] then x else l.prev[h]
  {
  }

  lemma LinkDescribedAt(l: Links, g: Layout, x: int, s: int, h: int)
    requires Shaped(l) && Describes(l, g) && Slot(l, x) && Slot(l, s) && x != s && Unique(l, x)
    requires 0 <= h < |g.rid|
    ensures Partition(LinkLayout(g, x, s))
    ensures LinkAfter(l, x, s).next[h] == Succ(LinkLayout(g, x, s), h)
    ensures LinkAfter(l, x, s).prev[h] == Pred(LinkLayout(g, x, s), h)
  {
    UniqueIffAlone(l, g, x);
    LinkPartition(g, x, s);
    LinkAfterAt(l, x, s, h);
    assert l.next[s] == Succ(g, s) && l.next[h] == Succ(g, h) && l.prev[h] == Pred(g, h);
    NeighboursInRing(g, s);
    if h == x {
      LinkDescribedSelf(g, x, s);
    } else if g.rid[h] == g.rid[s] {
      LinkDescribedRing(g, x, s, h);
    } else {
      LinkDescribedOther(g, x, s, h);
    }
  }

  /** Rings other than the one `x` joins keep their order. */
  lemma LinkDescribedOther(g: Layout, x: int, s: int, h: int)
    requires Partition(g) && 0 <= x < |g.rid| && 0 <= s < |g.rid| && x != s && |Ring(g, x)| == 1
    requires 0 <= h < |g.rid| && h != x && g.rid[h] != g.rid[s]
    ensures Partition(LinkLayout(g, x, s))
    ensures Succ(LinkLayout(g, x, s), h) == Succ(g, h) && Pred(LinkLayout(g, x, s), h) == Pred(g, h)
  {
    LinkPartition(g, x, s);
    assert g.rid[h] != g.rid[x] by { if g.rid[h] == g.rid[x] { AloneInRing(g, x, h); } }
    assert Ring(LinkLayout(g, x, s), h) == Ring(g, h);
  }

  lemma LinkDescribedSelf(g: Layout, x: int, s: int)
    requires Partition(g) && 0 <= x < |g.rid| && 0 <= s < |g.rid| && x != s && |Ring(g, x)| == 1
    ensures Partition(LinkLayout(g, x, s))
    ensures Succ(LinkLayout(g, x, s), x) == Succ(g, s) && Pred(LinkLayout(g, x, s), x) == s
  {
    LinkPartition(g, x, s);
    var g', c, p := LinkLayout(g, x, s), Ring(g, s), g.pos[s];
    var c' := Ring(g', s);
    assert g'.pos[x] == p + 1;
    if p + 1 < |c| { assert c'[p + 2] == c[p + 1]; }
  }

  lemma LinkDescribedRing(g: Layout, x: int, s: int, h: int)
    requires Partition(g) && 0 <= x < |g.rid| && 0 <= s < |g.rid| && x != s && |Ring(g, x)| == 1
    requires 0 <= h < |g.rid| && g.rid[h] == g.rid[s]
    ensures Partition(LinkLayout(g, x, s))
    ensures Succ(LinkLayout(g, x, s), h) == if h == s then x else Succ(g, h)
    ensures Pred(LinkLayout(g, x, s), h) == if h == Succ(g, s) then x else Pred(g, h)
  {
    LinkPartition(g, x, s);
    var g', c, p, q := LinkLayout(g, x, s), Ring(g, s), g.pos[s], g.pos[h];
    var c' := Ring(g', s);
    assert h != x by { if h == x { AloneInRing(g, x, s); } }
    assert Listed(g, g.rid[s], if p + 1 < |c| then p + 1 else 0);
    if q < p {
      assert c'[q + 1] == c[q + 1];
    } else if q > p {
      if q + 1 < |c| { assert c'[q + 2] == c[q + 1]; }
    }
    if q > p + 1 {
      assert c'[q] == c[q - 1];
    } else if 0 < q <= p {
      assert c'[q - 1] == c[q - 1];
    } else if q == 0 {
      assert c'[|c'| - 1] == if p + 1 < |c| then c[|c| - 1] else x;
    }
  }

  /** The layout after `x`, not alone in its ring, leaves it for a ring of its own. */
  ghost function UnlinkLayout(g: Layout, x: int): Layout
    requires Partition(g) && 0 <= x < |g.rid|
  {
    var r, c, p := g.rid[x], Ring(g, x), g.pos[x];
    Layout(g.rings[r := c[..p] + c[p + 1..]] + [[x]],
           g.rid[x := |g.rings|],
           seq(|g.rid|, h requires 0 <= h < |g.rid| =>
                 if h == x then 0 else if g.rid[h] == r && g.pos[h] > p then g.pos[h] - 1 else g.pos[h]))
  }

  lemma UnlinkPartition(g: Layout, x: int)
    requires Partition(g) && 0 <= x < |g.rid|
    ensures var g' := UnlinkLayout(g, x);
      && Partition(g')
      && Ring(g', x) == [x]
      && (forall h :: 0 <= h < |g.rid| && h != x && g.rid[h] == g.rid[x] ==>
            g'.rid[h] == g.rid[h] && Ring(g', h) == Ring(g, x)[..g.pos[x]] + Ring(g, x)[g.pos[x] + 1..])
      && (forall h :: 0 <= h < |g.rid| && g.rid[h] != g.rid[x] ==> g'.rid[h] == g.rid[h] && Ring(g', h) == Ring(g, h))
  {
    var g' := UnlinkLayout(g, x);
    var r, c, p := g.rid[x], Ring(g, x), g.pos[x];
    var c' := c[..p] + c[p + 1..];
    assert g'.rings[r] == c' && g'.rings[|g.rings|] == [x];
    forall h | 0 <= h < |g.rid|
      ensures 0 <= g'.rid[h] < |g'.rings| && 0 <= g'.pos[h] < |g'.rings[g'.rid[h]]| && g'.rings[g'.rid[h]][g'.pos[h]] == h
    {
      if h != x && g.rid[h] == r {
        var q := g.pos[h];
        if q < p { assert c'[q] == c[q]; } else { assert c'[q - 1] == c[q]; }
      }
    }
    forall r', i | 0 <= r' < |g'.rings| && 0 <= i < |g'.rings[r']| ensures Listed(g', r', i) {
      if r' == r {
        if i < p {
          assert c'[i] == c[i] && Listed(g, r, i);
        } else {
          assert c'[i] == c[i + 1] && Listed(g, r, i + 1);
        }
      } else if r' < |g.rings| {
        assert Listed(g, r', i);
      }
    }
  }

  /** The links of `Unlink` slot by slot. */
  lemma UnlinkAt(l: Links, x: int, h: int)
    requires Shaped(l) && Slot(l, x) && Slot(l, h)
    ensures Unlink(l, x).next[h] == if h == x then x else if h == l.prev[x] then l.next[x] else l.next[h]
    ensures Unlink(l, x).prev[h] == if h == x then x else if h == l.next[x] then l.prev[x] else l.prev[h]
  {
  }

  /** Leaving the ring: the remaining members close the gap. */
  lemma UnlinkDescribedRing(g: Layout, x: int, h: int)
    requires Partition(g) && 0 <= x < |g.rid| && 1 < |Ring(g, x)|
    requires 0 <= h < |g.rid| && h != x && g.rid[h] == g.rid[x]
    ensures Partition(UnlinkLayout(g, x))
    ensures Succ(UnlinkLayout(g, x), h) == if h == Pred(g, x) then Succ(g, x) else Succ(g, h)
    ensures Pred(UnlinkLayout(g, x), h) == if h == Succ(g, x) then Pred(g, x) else Pred(g, h)
  {
    UnlinkSuccInRing(g, x, h);
    UnlinkPredInRing(g, x, h);
  }

  lemma UnlinkSuccInRing(g: Layout, x: int, h: int)
    requires Partition(g) && 0 <= x < |g.rid| && 1 < |Ring(g, x)|
    requires 0 <= h < |g.rid| && h != x && g.rid[h] == g.rid[x]
    ensures Partition(UnlinkLayout(g, x))
    ensures Succ(UnlinkLayout(g, x), h) == if h == Pred(g, x) then Succ(g, x) else Succ(g, h)
  {
    UnlinkPartition(g, x);
    var g', r, c, p, q := UnlinkLayout(g, x), g.rid[x], Ring(g, x), g.pos[x], g.pos[h];
    var c' := Ring(g', h);
    assert q != p;
    assert Listed(g, r, if p + 1 < |c| then p + 1 else 0);
    assert Listed(g, r, if 0 < p then p - 1 else |c| - 1);
    if q < p {
      if q + 1 < p { assert c'[q + 1] == c[q + 1]; }
      else if p < |c'| { assert c'[p] == c[p + 1]; }
      else { assert c'[0] == c[0]; }
    } else {
      if q + 1 < |c| { assert c'[q] == c[p + 1..][q - p] == c[q + 1]; }
      else { assert c'[0] == if p == 0 then c[1] else c[0]; }
    }
  }

  lemma UnlinkPredInRing(g: Layout, x: int, h: int)
    requires Partition(g) && 0 <= x < |g.rid| && 1 < |Ring(g, x)|
    requires 0 <= h < |g.rid| && h != x && g.rid[h] == g.rid[x]
    ensures Partition(UnlinkLayout(g, x))
    ensures Pred(UnlinkLayout(g, x), h) == if h == Succ(g, x) then Pred(g, x) else Pred(g, h)
  {
    UnlinkPartition(g, x);
    var g', r, c, p, q := UnlinkLayout(g, x), g.rid[x], Ring(g, x), g.pos[x], g.pos[h];
    var c' := Ring(g', h);
    assert q != p;
    assert Listed(g, r, if p + 1 < |c| then p + 1 else 0);
    assert Listed(g, r, if 0 < p then p - 1 else |c| - 1);
    if q < p {
      if 0 < q { assert c'[q - 1] == c[q - 1]; }
      else { assert c'[|c'| - 1] == if p + 1 < |c| then c[|c| - 1] else c[p - 1]; }
    } else {
      if q - 1 > p { assert c'[q - 2] == c[q - 1]; }
      else if 0 < p { assert c'[p - 1] == c[p - 1]; }
      else { assert c'[|c'| - 1] == c[|c| - 1]; }
    }
  }

  /** The non-unique branch of `reset` splits `x` off exactly as `UnlinkLayout` says. */
  lemma UnlinkDescribed(l: Links, g: Layout, x: int)
    requires Shaped(l) && Describes(l, g) && Slot(l, x) && !Unique(l, x)
    ensures Describes(Unlink(l, x), UnlinkLayout(g, x))
  {
    UniqueIffAlone(l, g, x);
    UnlinkPartition(g, x);
    forall h | 0 <= h < |g.rid|
      ensures Unlink(l, x).next[h] == Succ(UnlinkLayout(g, x), h)
      ensures Unlink(l, x).prev[h] == Pred(UnlinkLayout(g, x), h)
    {
      UnlinkAt(l, x, h);
      NeighboursInRing(g, x);
      if h != x && g.rid[h] == g.rid[x] {
        UnlinkDescribedRing(g, x, h);
      } else if h != x {
        NeighboursInRing(g, h);
      }
    }
  }

  // ---------------------------------------------------------------------------
  // The public operations on the layout
  // ---------------------------------------------------------------------------

  /** The rings after `x.reset(p)`. */
  ghost function ResetLayout(l: Links, g: Layout, x: int, p: int): Layout
    requires Shaped(l) && Slot(l, x) && Partition(g) && 0 <= x < |g.rid|
  {
    if p == l.stored[x] || Unique(l, x) then g else UnlinkLayout(g, x)
  }

  /** The rings after the fresh, unique handle `x` is copy-constructed from `s`. */
  ghost function CopyInitLayout(l: Links, g: Layout, x: int, s: int): Layout
    requires Shaped(l) && Slot(l, s) && Partition(g) && 0 <= x < |g.rid| && 0 <= s < |g.rid|
  {
    if l.stored[s] != NULL then LinkLayout(g, x, s) else g
  }

  /** The rings after `x = s`. */
  ghost function AssignLayout(l: Links, g: Layout, x: int, s: int): Layout
    requires Shaped(l) && Slot(l, x) && Slot(l, s) && Partition(g) && 0 <= x < |g.rid| && 0 <= s < |g.rid|
    requires Describes(l, g)
  {
    if l.stored[s] == l.stored[x] then g
    else
      var g1 := ResetLayout(l, g, x, l.stored[s]);
      if l.stored[s] != NULL then (UnlinkPartition(g, x); LinkLayout(g1, x, s)) else g1
  }

  /** The rings after `a.swap(b)`. */
  ghost function SwapLayout(l: Links, g: Layout, a: int, b: int): Layout
    requires Shaped(l) && Slot(l, a) && Slot(l, b) && Partition(g) && 0 <= a < |g.rid| && 0 <= b < |g.rid|
  {
    if l.stored[a] == l.stored[b] then g else ExchangeLayout(g, a, b)
  }

  /** Taking one slot out of a sequence takes it out of its multiset. */
  lemma RemoveAt(c: seq<int>, p: int)
    requires 0 <= p < |c|
    ensures multiset(c[..p] + c[p + 1..]) == multiset(c) - multiset{c[p]}
  {
    assert c == c[..p] + [c[p]] + c[p + 1..];
  }

  /** Putting one slot into a sequence puts it into its multiset. */
  lemma InsertAt(c: seq<int>, p: int, x: int)
    requires 0 <= p <= |c|
    ensures multiset(c[..p] + [x] + c[p..]) == multiset(c) + multiset{x}
  {
    assert c == c[..p] + c[p..];
  }

  /**
    `reset(p)`: nothing changes when `p` is already stored; a unique handle keeps
    its ring of one; a handle that shares its ring leaves it, and the members that
    remain form a ring that lost exactly this handle and kept its pointer.
  */
  lemma ResetDescribed(l: Links, g: Layout, x: int, p: int)
    requires Sound(l) && Describes(l, g) && Slot(l, x)
    ensures var r, g' := Reset(l, x, p), ResetLayout(l, g, x, p);
      && Sound(r) && Describes(r, g')
      && (p == l.stored[x] ==> r == l && g' == g)
      && (p != l.stored[x] ==> Ring(g', x) == [x] && r.stored[x] == p)
      && (forall h :: Slot(l, h) && h != x ==> r.stored[h] == l.stored[h])
      && (forall h :: Slot(l, h) && h != x && Unique(l, h) ==> Unique(r, h))
      && (forall h :: Slot(l, h) && g.rid[h] != g.rid[x] ==> Ring(g', h) == Ring(g, h))
      && (p != l.stored[x] && !Unique(l, x) ==>
            forall h :: Slot(l, h) && h != x && g.rid[h] == g.rid[x] ==>
              && |Ring(g', h)| == |Ring(g, x)| - 1
              && multiset(Ring(g', h)) == multiset(Ring(g, x)) - multiset{x})
  {
    ResetSound(l, x, p);
    UniqueIffAlone(l, g, x);
    if p != l.stored[x] {
      if Unique(l, x) {
        assert Ring(g, x) == [x] by { assert Listed(g, g.rid[x], 0); }
      } else {
        UnlinkDescribed(l, g, x);
        UnlinkPartition(g, x);
        RemoveAt(Ring(g, x), g.pos[x]);
        var g' := UnlinkLayout(g, x);
        forall h | Slot(l, h) && h != x && g.rid[h] == g.rid[x]
          ensures |Ring(g', h)| == |Ring(g, x)| - 1 && multiset(Ring(g', h)) == multiset(Ring(g, x)) - multiset{x}
        {
          assert Ring(g, x)[g.pos[x]] == x;
        }
      }
    }
  }

  /**
    Copy construction of the fresh handle `x` from `s`: from a non-null handle, `x`
    joins `s`'s ring directly after `s`, which grows by exactly `x`; from a null
    handle, `x` is a ring of its own.
  */
  lemma CopyInitDescribed(l: Links, g: Layout, x: int, s: int)
    requires Sound(l) && Describes(l, g) && Slot(l, x) && Slot(l, s) && x != s && Unique(l, x)
    ensures var r, g' := CopyInit(l, x, s), CopyInitLayout(l, g, x, s);
      && Sound(r) && Describes(r, g') && r.stored[x] == l.stored[s]
      && (forall h :: Slot(l, h) && h != x ==> r.stored[h] == l.stored[h])
      && (forall h :: Slot(l, h) && h != x && h != s && Unique(l, h) ==> Unique(r, h))
      && (l.stored[s] != NULL ==>
            && g'.rid[x] == g'.rid[s] && r.next[s] == x && r.prev[x] == s
            && |Ring(g', s)| == |Ring(g, s)| + 1
            && multiset(Ring(g', s)) == multiset(Ring(g, s)) + multiset{x})
      && (l.stored[s] == NULL ==> Unique(r, x) && Ring(g', x) == [x])
  {
    CopyInitSound(l, x, s);
    UniqueIffAlone(l, g, x);
    if l.stored[s] != NULL {
      CopyInitLinkDescribed(l, g, x, s);
    } else {
      assert Ring(g, x) == [x] by { assert Listed(g, g.rid[x], 0); }
    }
  }

  /** The non-null branch of `CopyInitDescribed`: `x` joins `s`'s ring after `s`. */
  lemma CopyInitLinkDescribed(l: Links, g: Layout, x: int, s: int)
    requires Sound(l) && Describes(l, g) && Slot(l, x) && Slot(l, s) && x != s && Unique(l, x)
    requires l.stored[s] != NULL
    ensures var r, g' := CopyInit(l, x, s), CopyInitLayout(l, g, x, s);
      && Describes(r, g') && g'.rid[x] == g'.rid[s]
      && |Ring(g', s)| == |Ring(g, s)| + 1
      && multiset(Ring(g', s)) == multiset(Ring(g, s)) + multiset{x}
  {
    UniqueIffAlone(l, g, x);
    var l' := l.(stored := l.stored[x := l.stored[s]]);
    LinkDescribed(l', g, x, s);
    LinkPartition(g, x, s);
    InsertAt(Ring(g, s), g.pos[s] + 1, x);
  }

  /**
    `x = s`: nothing happens when both already hold the same pointer; otherwise
    `x` leaves its ring (releasing if it was the last owner) and, for a non-null
    source, joins `s`'s ring, which grows by exactly `x`.
  */
  lemma AssignDescribed(l: Links, g: Layout, x: int, s: int)
    requires Sound(l) && Describes(l, g) && Slot(l, x) && Slot(l, s)
    ensures var r, g' := Assign(l, x, s), AssignLayout(l, g, x, s);
      && Sound(r) && Describes(r, g')
      && r.stored[x] == r.stored[s] == l.stored[s]
      && (forall h :: Slot(l, h) && h != x ==> r.stored[h] == l.stored[h])
      && (forall h :: Slot(l, h) && h != x && h != s && Unique(l, h) ==> Unique(r, h))
      && (l.stored[s] == l.stored[x] ==> r == l)
      && (l.stored[s] != l.stored[x] && l.stored[s] != NULL ==>
            && g'.rid[x] == g'.rid[s] && r.next[s] == x && r.prev[x] == s
            && |Ring(g', s)| == |Ring(g, s)| + 1
            && multiset(Ring(g', s)) == multiset(Ring(g, s)) + multiset{x})
      && (l.stored[s] != l.stored[x] && l.stored[s] == NULL ==> Unique(r, x) && Ring(g', x) == [x])
  {
    AssignSound(l, x, s);
    if l.stored[s] != l.stored[x] {
      if l.stored[s] != NULL {
        AssignLinkDescribed(l, g, x, s);
      } else {
        ResetDescribed(l, g, x, NULL);
      }
    }
  }

  /** The non-null branch of `AssignDescribed`: `x` leaves its ring and joins `s`'s. */
  lemma AssignLinkDescribed(l: Links, g: Layout, x: int, s: int)
    requires Sound(l) && Describes(l, g) && Slot(l, x) && Slot(l, s)
    requires l.stored[s] != l.stored[x] && l.stored[s] != NULL
    ensures var r, g' := Assign(l, x, s), AssignLayout(l, g, x, s);
      && Describes(r, g') && g'.rid[x] == g'.rid[s]
      && |Ring(g', s)| == |Ring(g, s)| + 1
      && multiset(Ring(g', s)) == multiset(Ring(g, s)) + multiset{x}
  {
    ResetDescribed(l, g, x, l.stored[s]);
    var r1, g1 := Reset(l, x, l.stored[s]), ResetLayout(l, g, x, l.stored[s]);
    assert g.rid[s] != g.rid[x] by {
      if g.rid[s] == g.rid[x] { SameRingSamePointer(l, g, x, s); }
    }
    assert x != s;
    LinkDescribed(r1, g1, x, s);
    LinkPartition(g1, x, s);
    InsertAt(Ring(g1, s), g1.pos[s] + 1, x);
  }

  /**
    `a.swap(b)`: nothing happens when the pointers are equal; otherwise the two
    handles exchange their pointers, their ring positions and their ring sizes,
    and every other handle keeps the size of its ring.
  */
  lemma SwapDescribed(l: Links, g: Layout, a: int, b: int)
    requires Sound(l) && Describes(l, g) && Slot(l, a) && Slot(l, b)
    ensures var r, g' := Swap(l, a, b), SwapLayout(l, g, a, b);
      && Sound(r) && Describes(r, g')
      && r.stored[a] == l.stored[b] && r.stored[b] == l.stored[a]
      && (l.stored[a] == l.stored[b] ==> r == l)
      && (l.stored[a] != l.stored[b] ==>
            && |Ring(g', a)| == |Ring(g, b)| && |Ring(g', b)| == |Ring(g, a)|
            && (Unique(r, a) <==> Unique(l, b)) && (Unique(r, b) <==> Unique(l, a)))
      && (forall h :: Slot(l, h) && h != a && h != b ==> r.stored[h] == l.stored[h] && |Ring(g', h)| == |Ring(g, h)|)
      && (forall h :: Slot(l, h) && h != a && h != b && Unique(l, h) ==> Unique(r, h))
  {
    if l.stored[a] != l.stored[b] {
      SwapIsExchange(l, a, b);
      ExchangeSound(l, a, b);
      ExchangeDescribed(l, g, a, b);
      var r, g' := Swap(l, a, b), SwapLayout(l, g, a, b);
      assert |Ring(g', a)| == |Ring(g, Transpose(a, b, a))|;
      assert |Ring(g', b)| == |Ring(g, Transpose(a, b, b))|;
      UniqueIffAlone(l, g, a);
      UniqueIffAlone(l, g, b);
      UniqueIffAlone(r, g', a);
      UniqueIffAlone(r, g', b);
      ExchangeOthers(l, g, a, b);
    }
  }

  /** Handles other than `a` and `b` keep their pointer, their ring size and their being alone. */
  lemma ExchangeOthers(l: Links, g: Layout, a: int, b: int)
    requires Sound(l) && Describes(l, g) && Slot(l, a) && Slot(l, b)
    ensures var e, g' := Exchange(l, a, b), ExchangeLayout(g, a, b);
      && Describes(e, g')
      && (forall h :: Slot(l, h) && h != a && h != b ==> e.stored[h] == l.stored[h] && |Ring(g', h)| == |Ring(g, h)|)
      && (forall h :: Slot(l, h) && h != a && h != b && Unique(l, h) ==> Unique(e, h))
  {
    var e, g' := Exchange(l, a, b), ExchangeLayout(g, a, b);
    ExchangeDescribed(l, g, a, b);
    forall h | Slot(l, h) && h != a && h != b
      ensures e.stored[h] == l.stored[h] && |Ring(g', h)| == |Ring(g, h)|
      ensures Unique(l, h) ==> Unique(e, h)
    {
      assert Transpose(a, b, h) == h;
    }
  }

  /** Swapping twice gives back the original arena: pointers, rings and all. */
  lemma SwapTwice(l: Links, a: int, b: int)
    requires Sound(l) && Slot(l, a) && Slot(l, b)
    ensures Sound(Swap(l, a, b)) && Swap(Swap(l, a, b), a, b) == l
  {
    if l.stored[a] != l.stored[b] {
      SwapIsExchange(l, a, b);
      ExchangeSound(l, a, b);
      SwapIsExchange(Exchange(l, a, b), a, b);
      ExchangeTwice(l, a, b);
    }
  }

  /**
    `swap_unique_non_unique(f, s)`: `f` takes over the exact place of `s` (its
    neighbours now point at `f`) and `s` becomes a ring of its own.
  */
  lemma SwapUniqueNonUniqueTakesPlace(l: Links, f: int, s: int)
    requires Sound(l) && Slot(l, f) && Slot(l, s) && l.stored[f] != l.stored[s]
    requires Unique(l, f) && !Unique(l, s)
    ensures var r := SwapUniqueNonUnique(l, f, s);
      && Sound(r)
      && r.stored[f] == l.stored[s] && r.stored[s] == l.stored[f]
      && r.next[f] == l.next[s] && r.prev[f] == l.prev[s]
      && r.next[l.prev[s]] == f && r.prev[l.next[s]] == f
      && r.next[s] == s && r.prev[s] == s
  {
    SwapUniqueNonUniqueIsExchange(l, f, s);
    ExchangeSound(l, f, s);
    assert LinkedAt(l, f) && LinkedAt(l, s);
    assert LinkedAt(l, l.next[s]) && LinkedAt(l, l.prev[s]);
  }

  // ---------------------------------------------------------------------------
  // Release happens once per ring, by its last member
  // ---------------------------------------------------------------------------

  /** The pointer handed to `delete` or the `Deleter` by `x.reset(p)`, if any. */
  function Released(l: Links, x: int, p: int): (r: seq<int>)
    requires Slot(l, x) && |l.stored| == |l.next|
    ensures |r| <= 1 && (r != [] <==> ReleaseRuns(l, x, p))
    ensures forall q :: q in r ==> q == l.stored[x]
  {
    if ReleaseRuns(l, x, p) then [l.stored[x]] else []
  }

  /**
    The arena and the release log after `xs[0].reset(ps[0])`, `xs[1].reset(ps[1])`, ...
    in that order (destruction is the reset to null).
  */
  ghost function ResetEach(l: Links, xs: seq<int>, ps: seq<int>): (r: (Links, seq<int>))
    requires Sound(l) && |ps| == |xs| && forall i :: 0 <= i < |xs| ==> 0 <= xs[i] < |l.next|
    ensures Sound(r.0) && |r.0.next| == |l.next|
    decreases |xs|
  {
    if xs == [] then (l, [])
    else
      ResetSound(l, xs[0], ps[0]);
      var l1 := Reset(l, xs[0], ps[0]);
      var rest := ResetEach(l1, xs[1..], ps[1..]);
      (rest.0, Released(l, xs[0], ps[0]) + rest.1)
  }

  /** The members other than `xs[0]` of a ring listed by `xs` make up the ring `xs[0]` leaves behind. */
  lemma RestOfRing(g: Layout, xs: seq<int>)
    requires Partition(g) && 1 < |xs| && 0 <= xs[0] < |g.rid|
    requires multiset(xs) == multiset(Ring(g, xs[0]))
    ensures var g1 := UnlinkLayout(g, xs[0]);
      && Partition(g1) && 0 <= xs[1] < |g.rid| && xs[1] != xs[0] && g.rid[xs[1]] == g.rid[xs[0]]
      && multiset(xs[1..]) == multiset(Ring(g1, xs[1]))
  {
    var x := xs[0];
    var c, p := Ring(g, x), g.pos[x];
    UnlinkPartition(g, x);
    var i := RemoveFirst(xs, c, p);
    assert Listed(g, g.rid[x], if i < p then i else i + 1);
  }

  /** `xs` less its first element lists what is left of `c` without position `p`, which held `xs[0]`. */
  lemma RemoveFirst(xs: seq<int>, c: seq<int>, p: int) returns (i: int)
    requires 1 < |xs| && 0 <= p < |c| && c[p] == xs[0] && multiset(xs) == multiset(c)
    ensures multiset(xs[1..]) == multiset(c[..p] + c[p + 1..])
    ensures 0 <= i < |c| - 1 && xs[1] == (c[..p] + c[p + 1..])[i] == c[if i < p then i else i + 1]
  {
    RemoveAt(c, p);
    assert xs == [xs[0]] + xs[1..];
    i := IndexOf(xs[1..], c[..p] + c[p + 1..]);
    if i < p {
      assert (c[..p] + c[p + 1..])[i] == c[..p][i];
    } else {
      assert (c[..p] + c[p + 1..])[i] == c[p + 1..][i - p];
    }
  }

  /** The first element of a non-empty `xs` sits somewhere in any `c` with the same multiset. */
  lemma IndexOf(xs: seq<int>, c: seq<int>) returns (i: int)
    requires 0 < |xs| && multiset(xs) == multiset(c)
    ensures 0 <= i < |c| && c[i] == xs[0]
  {
    assert xs[0] in multiset(c);
    i :| 0 <= i < |c| && c[i] == xs[0];
  }

  /** One member, not the last, leaves: it releases nothing and the others still form one ring. */
  lemma ResetLeavesRest(l: Links, g: Layout, xs: seq<int>, p: int)
    requires Sound(l) && Describes(l, g) && 1 < |xs|
    requires forall i :: 0 <= i < |xs| ==> 0 <= xs[i] < |l.next|
    requires multiset(xs) == multiset(Ring(g, xs[0]))
    requires p != l.stored[xs[0]]
    ensures var l1, g1 := Reset(l, xs[0], p), ResetLayout(l, g, xs[0], p);
      && Sound(l1) && Describes(l1, g1) && Released(l, xs[0], p) == []
      && multiset(xs[1..]) == multiset(Ring(g1, xs[1]))
      && l1.stored[xs[1]] == l.stored[xs[0]]
  {
    var x := xs[0];
    UniqueIffAlone(l, g, x);
    assert |Ring(g, x)| == |multiset(Ring(g, x))| == |multiset(xs)| == |xs|;
    ResetDescribed(l, g, x, p);
    RestOfRing(g, xs);
    SameRingSamePointer(l, g, x, xs[1]);
  }

  /** The first step of `ResetEach`. */
  lemma ResetEachStep(l: Links, xs: seq<int>, ps: seq<int>)
    requires Sound(l) && |ps| == |xs| && 0 < |xs|
    requires forall i :: 0 <= i < |xs| ==> 0 <= xs[i] < |l.next|
    ensures Sound(Reset(l, xs[0], ps[0]))
    ensures ResetEach(l, xs, ps).1 == Released(l, xs[0], ps[0]) + ResetEach(Reset(l, xs[0], ps[0]), xs[1..], ps[1..]).1
  {
    ResetSound(l, xs[0], ps[0]);
  }

  /**
    When every member of one ring is reset to some other pointer, one at a time
    and in any order, the ring's pointer is released exactly once.
  */
  lemma {:induction false} LastOwnerReleases(l: Links, g: Layout, xs: seq<int>, ps: seq<int>)
    requires Sound(l) && Describes(l, g) && |ps| == |xs| && 0 < |xs|
    requires forall i :: 0 <= i < |xs| ==> 0 <= xs[i] < |l.next|
    requires multiset(xs) == multiset(Ring(g, xs[0]))
    requires forall i :: 0 <= i < |ps| ==> ps[i] != l.stored[xs[0]]
    ensures ResetEach(l, xs, ps).1 == [l.stored[xs[0]]]
    decreases |xs|
  {
    var x := xs[0];
    ResetEachStep(l, xs, ps);
    if |xs| == 1 {
      UniqueIffAlone(l, g, x);
      assert |Ring(g, x)| == |multiset(Ring(g, x))| == |multiset(xs)| == 1;
    } else {
      ResetLeavesRest(l, g, xs, ps[0]);
      LastOwnerReleases(Reset(l, x, ps[0]), ResetLayout(l, g, x, ps[0]), xs[1..], ps[1..]);
    }
  }

  /** ... and only by the last member: resetting all the others releases nothing. */
  lemma {:induction false} OnlyLastOwnerReleases(l: Links, g: Layout, xs: seq<int>, ps: seq<int>)
    requires Sound(l) && Describes(l, g) && |ps| == |xs| && 0 < |xs|
    requires forall i :: 0 <= i < |xs| ==> 0 <= xs[i] < |l.next|
    requires multiset(xs) == multiset(Ring(g, xs[0]))
    requires forall i :: 0 <= i < |ps| ==> ps[i] != l.stored[xs[0]]
    ensures ResetEach(l, xs[..|xs| - 1], ps[..|ps| - 1]).1 == []
    decreases |xs|
  {
    var x, n := xs[0], |xs|;
    if n > 1 {
      var xs', ps' := xs[..n - 1], ps[..n - 1];
      assert xs'[0] == x && ps'[0] == ps[0];
      assert xs'[1..] == xs[1..][..n - 2] && ps'[1..] == ps[1..][..n - 2];
      ResetEachStep(l, xs', ps');
      ResetLeavesRest(l, g, xs, ps[0]);
      OnlyLastOwnerReleases(Reset(l, x, ps[0]), ResetLayout(l, g, x, ps[0]), xs[1..], ps[1..]);
    }
  }

  // ---------------------------------------------------------------------------
  // The member-wise swap of linked_ptr.h
  // ---------------------------------------------------------------------------

  /** linked_ptr.h's `swap`: the two handles exchange their own three fields and nothing else. */
  function NaiveSwap(l: Links, a: int, b: int): (r: Links)
    requires Shaped(l) && Slot(l, a) && Slot(l, b)
    ensures Shaped(r) && |r.next| == |l.next| && r.stored == SwapAt(l.stored, a, b)
  {
    Links(SwapAt(l.next, a, b), SwapAt(l.prev, a, b), SwapAt(l.stored, a, b))
  }

  /**
    The neighbours of the two handles still point at the old places, so whenever
    the handles are distinct and hold different pointers the result is not a
    well-formed arena any more.
  */
  lemma NaiveSwapBreaksRings(l: Links, a: int, b: int)
    requires Sound(l) && Slot(l, a) && Slot(l, b) && a != b && l.stored[a] != l.stored[b]
    ensures !Sound(NaiveSwap(l, a, b))
  {
    var r := NaiveSwap(l, a, b);
    var n := l.next[b];
    assert LinkedAt(l, a) && LinkedAt(l, b) && LinkedAt(l, n);
    assert Shaped(r);
    assert !LinkedAt(r, a);
  }

  /**
    Two singletons holding different pointers end up as a ring of two that holds
    both; destroying the first then releases nothing, and destroying the second
    releases only the pointer the second holds, so the other one leaks.
  */
  lemma NaiveSwapOfTwoSingletons()
    ensures var l := Links([0, 1], [0, 1], [10, 20]);
      && Sound(l)
      && NaiveSwap(l, 0, 1) == Links([1, 0], [1, 0], [20, 10])
      && !Sound(NaiveSwap(l, 0, 1))
      && Released(NaiveSwap(l, 0, 1), 0, NULL) == []
      && Released(Reset(NaiveSwap(l, 0, 1), 0, NULL), 1, NULL) == [10]
  {
    var l := Links([0, 1], [0, 1], [10, 20]);
    assert LinkedAt(l, 0) && LinkedAt(l, 1);
    NaiveSwapBreaksRings(l, 0, 1);
  }

  /**
    The two members of one ring of two end up as two singletons that both hold
    the ring's pointer: the result looks well formed, yet destroying both
    handles releases that pointer twice. The ring-aware `Swap` leaves the ring
    as it is, and destroying both of its handles releases the pointer once.
  */
  lemma NaiveSwapOfRingOfTwo()
    ensures var l := Links([1, 0], [1, 0], [10, 10]);
      && Sound(l)
      && NaiveSwap(l, 0, 1) == Links([0, 1], [0, 1], [10, 10])
      && Sound(NaiveSwap(l, 0, 1))
      && Released(NaiveSwap(l, 0, 1), 0, NULL) == [10]
      && Released(Reset(NaiveSwap(l, 0, 1), 0, NULL), 1, NULL) == [10]
      && Swap(l, 0, 1) == l
      && Released(l, 0, NULL) == []
      && Released(Reset(l, 0, NULL), 1, NULL) == [10]
  {
    var l := Links([1, 0], [1, 0], [10, 10]);
    assert LinkedAt(l, 0) && LinkedAt(l, 1);
    var n := NaiveSwap(l, 0, 1);
    assert n.next == [0, 1] && n.prev == [0, 1] && n.stored == [10, 10];
    assert LinkedAt(n, 0) && LinkedAt(n, 1);
    var u := Reset(l, 0, NULL);
    assert u.next == [0, 1] && u.stored == [0, 10];
  }

  /** Every handle of one ring returns the same `get()`. */
  lemma RingHoldsOnePointer(l: Links, g: Layout, h: int)
    requires Sound(l) && Describes(l, g) && Slot(l, h)
    ensures forall y :: Slot(l, y) && g.rid[y] == g.rid[h] ==> l.stored[y] == l.stored[h]
  {
    forall y | Slot(l, y) && g.rid[y] == g.rid[h] ensures l.stored[y] == l.stored[h] {
      SameRingSamePointer(l, g, h, y);
    }
  }

  /** `n` handle slots, each a singleton holding null, and their rings of one. */
  lemma AllAlone(n: nat)
    ensures var l := Links(seq(n, h => h), seq(n, h => h), seq(n, h => NULL));
      && Sound(l)
      && Describes(l, Layout(seq(n, h => [h]), seq(n, h => h), seq(n, h => 0)))
  {
    var l := Links(seq(n, h => h), seq(n, h => h), seq(n, h => NULL));
    var g := Layout(seq(n, h => [h]), seq(n, h => h), seq(n, h => 0));
    forall h | 0 <= h < n ensures LinkedAt(l, h) { }
    forall r, i | 0 <= r < |g.rings| && 0 <= i < |g.rings[r]| ensures Listed(g, r, i) { }
  }

  // ---------------------------------------------------------------------------
  // Arenas: constructed handles and dead storage
  // ---------------------------------------------------------------------------

  /** Every slot not marked live is dead storage: a singleton holding null. */
  ghost predicate Vacant(l: Links, live: seq<bool>)
    requires Shaped(l) && |live| == |l.next|
  {
    forall h :: 0 <= h < |live| && !live[h] ==> l.next[h] == h && l.stored[h] == NULL
  }

  /** The invariant of an arena: sound links, rings described by `g`, dead storage empty. */
  ghost predicate Valid(l: Links, g: Layout, live: seq<bool>) {
    && Sound(l) && Describes(l, g) && |live| == |l.next|
    && Vacant(l, live)
  }

  /** Constructing a handle in dead storage keeps the arena valid; its ring is itself. */
  lemma InitValid(l: Links, g: Layout, live: seq<bool>, x: int, p: int)
    requires Valid(l, g, live) && 0 <= x < |live| && !live[x]
    ensures Valid(Singleton(l, x, p), g, live[x := true]) && |Ring(g, x)| == 1
  {
    UniqueIffAlone(l, g, x);
    SingletonSound(l, x, p);
    assert Singleton(l, x, p).next == l.next && Singleton(l, x, p).prev == l.prev by {
      assert LinkedAt(l, x);
    }
  }

  lemma CopyInitValid(l: Links, g: Layout, live: seq<bool>, x: int, s: int)
    requires Valid(l, g, live) && 0 <= x < |live| && 0 <= s < |live| && !live[x] && live[s]
    ensures Valid(CopyInit(l, x, s), CopyInitLayout(l, g, x, s), live[x := true])
  {
    CopyInitDescribed(l, g, x, s);
  }

  lemma ResetValid(l: Links, g: Layout, live: seq<bool>, x: int, p: int)
    requires Valid(l, g, live) && 0 <= x < |live| && live[x]
    ensures Valid(Reset(l, x, p), ResetLayout(l, g, x, p), live)
  {
    ResetDescribed(l, g, x, p);
  }

  /** After `reset()` the slot is a singleton holding null, so it may become dead storage. */
  lemma DestroyValid(l: Links, g: Layout, live: seq<bool>, x: int)
    requires Valid(l, g, live) && 0 <= x < |live| && live[x]
    ensures Valid(Reset(l, x, NULL), ResetLayout(l, g, x, NULL), live[x := false])
  {
    ResetDescribed(l, g, x, NULL);
    assert LinkedAt(Reset(l, x, NULL), x);
  }

  lemma AssignValid(l: Links, g: Layout, live: seq<bool>, x: int, s: int)
    requires Valid(l, g, live) && 0 <= x < |live| && 0 <= s < |live| && live[x] && live[s]
    ensures Valid(Assign(l, x, s), AssignLayout(l, g, x, s), live)
  {
    AssignDescribed(l, g, x, s);
    var r := Assign(l, x, s);
    forall h | 0 <= h < |live| && !live[h] ensures r.next[h] == h && r.stored[h] == NULL {
      assert h != x && h != s && Unique(l, h);
    }
  }

  /** A swap of two live handles keeps the arena valid and leaves dead storage alone. */
  lemma SwapValid(l: Links, g: Layout, live: seq<bool>, a: int, b: int)
    requires Valid(l, g, live) && 0 <= a < |live| && 0 <= b < |live| && live[a] && live[b]
    ensures Valid(Swap(l, a, b), SwapLayout(l, g, a, b), live)
  {
    SwapDescribed(l, g, a, b);
    if l.stored[a] != l.stored[b] {
      SwapIsExchange(l, a, b);
      var e := Exchange(l, a, b);
      forall h | 0 <= h < |live| && !live[h] ensures e.next[h] == h && e.stored[h] == NULL {
        assert Transpose(a, b, h) == h;
      }
    }
  }
}

=== FILE: LinkedPtr.dfy ===
/**
  linked_ptr.hpp: the handles of one program as an arena of slots whose
  `previous`, `next` and `stored_pointer` fields live in three arrays and are
  rewritten in place, statement by statement as the C++ code does.

  A slot is either a live handle or dead storage; dead storage is a singleton
  holding null. Constructors turn a dead slot into a live handle, the destructor
  turns it back. `delete` is the ghost log `freed`: `delete nullptr` frees
  nothing, so only non-null pointers are logged.
*/
module LinkedPtr {
  import LinkNode

  /** What `x.reset(p)` hands to `delete`: the old pointer if it is released and not null. */
  function Deleted(l: LinkNode.Links, x: int, p: int): (r: seq<int>)
    requires LinkNode.Slot(l, x) && |l.stored| == |l.next|
    ensures r != [] <==> LinkNode.ReleaseRuns(l, x, p) && l.stored[x] != LinkNode.NULL
    ensures r <= LinkNode.Released(l, x, p)
  {
    if LinkNode.ReleaseRuns(l, x, p) && l.stored[x] != LinkNode.NULL then [l.stored[x]] else []
  }

  class Arena {
    const next: array<int>
    const prev: array<int>
    const stored: array<int>
    /** The rings the links form. */
    ghost var layout: LinkNode.Layout
    /** Which slots hold a constructed handle. */
    ghost var live: seq<bool>
    /** Every pointer passed to `delete`, in order. */
    ghost var freed: seq<int>

    ghost function Model(): LinkNode.Links
      reads this, next, prev, stored
    {
      LinkNode.Links(next[..], prev[..], stored[..])
    }

    /** Three separate arrays of one length. */
    ghost predicate Wired()
      reads this
    {
      && next != prev && next != stored && prev != stored
      && prev.Length == next.Length && stored.Length == next.Length
    }

    ghost predicate Valid()
      reads this, next, prev, stored
    {
      Wired() && |live| == next.Length && LinkNode.Valid(Model(), layout, live)
    }

    /** `n` slots of dead storage. */
    constructor(n: nat)
      ensures Valid() && |live| == n && freed == []
      ensures forall h :: 0 <= h < n ==> !live[h]
      ensures fresh(next) && fresh(prev) && fresh(stored)
      ensures Model() == LinkNode.Links(seq(n, h => h), seq(n, h => h), seq(n, h => LinkNode.NULL))
    {
      next := new int[n](h => h);
      prev := new int[n](h => h);
      stored := new int[n](h => LinkNode.NULL);
      layout := LinkNode.Layout(seq(n, h => [h]), seq(n, h => h), seq(n, h => 0));
      live := seq(n, h => false);
      freed := [];
      new;
      LinkNode.AllAlone(n);
      assert next[..] == seq(n, h => h) && prev[..] == seq(n, h => h);
      assert stored[..] == seq(n, h => LinkNode.NULL);
    }

    /** `link(other)`: splice `x` in directly after `s`. */
    method Link(x: int, s: int)
      requires Wired() && LinkNode.Shaped(Model()) && 0 <= x < next.Length && 0 <= s < next.Length
      modifies next, prev
      ensures Model() == LinkNode.LinkAfter(old(Model()), x, s)
    {
      next[x] := next[s];
      prev[next[x]] := x;
      prev[x] := s;
      next[s] := x;
    }

    /** `linked_ptr()`: a handle holding null, alone in its ring. */
    method Init(x: int)
      requires Valid() && 0 <= x < |live| && !live[x]
      modifies this, next, prev, stored
      ensures Valid() && live == old(live)[x := true] && freed == old(freed) && layout == old(layout)
      ensures Model() == LinkNode.Singleton(old(Model()), x, LinkNode.NULL)
      ensures |LinkNode.Ring(layout, x)| == 1
    {
      InitRaw(x, LinkNode.NULL);
    }

    /** `linked_ptr(p)`: a handle holding `p`, alone in its ring. */
    method InitRaw(x: int, p: int)
      requires Valid() && 0 <= x < |live| && !live[x]
      modifies this, next, prev, stored
      ensures Valid() && live == old(live)[x := true] && freed == old(freed) && layout == old(layout)
      ensures Model() == LinkNode.Singleton(old(Model()), x, p)
      ensures |LinkNode.Ring(layout, x)| == 1
    {
      LinkNode.InitValid(Model(), layout, live, x, p);
      stored[x] := p;
      next[x] := x;
      prev[x] := x;
      live := live[x := true];
    }

    /**
      The copy and converting constructors: from a non-null handle `s` the new
      handle joins `s`'s ring directly after it; from a null one it is alone.
    */
    method InitCopy(x: int, s: int)
      requires Valid() && 0 <= x < |live| && 0 <= s < |live| && !live[x] && live[s]
      modifies this, next, prev, stored
      ensures Valid() && live == old(live)[x := true] && freed == old(freed)
      ensures Model() == LinkNode.CopyInit(old(Model()), x, s)
      ensures layout == LinkNode.CopyInitLayout(old(Model()), old(layout), x, s)
    {
      ghost var l, g := Model(), layout;
      LinkNode.CopyInitValid(l, g, live, x, s);
      stored[x] := stored[s];
      if stored[x] != LinkNode.NULL {
        Link(x, s);
        layout := LinkNode.LinkLayout(layout, x, s);
      } else {
        next[x] := x;
        prev[x] := x;
      }
      live := live[x := true];
    }

    /** `~linked_ptr()`: `reset()`, after which the slot is dead storage again. */
    method Destroy(x: int)
      requires Valid() && 0 <= x < |live| && live[x]
      modifies this, next, prev, stored
      ensures Valid() && live == old(live)[x := false]
      ensures Model() == LinkNode.Reset(old(Model()), x, LinkNode.NULL)
      ensures layout == LinkNode.ResetLayout(old(Model()), old(layout), x, LinkNode.NULL)
      ensures freed == old(freed) + Deleted(old(Model()), x, LinkNode.NULL)
    {
      LinkNode.DestroyValid(Model(), layout, live, x);
      ResetNull(x);
      live := live[x := false];
    }

    /** `reset()`. */
    method ResetNull(x: int)
      requires Valid() && 0 <= x < |live| && live[x]
      modifies this, next, prev, stored
      ensures Valid() && live == old(live)
      ensures Model() == LinkNode.Reset(old(Model()), x, LinkNode.NULL)
      ensures layout == LinkNode.ResetLayout(old(Model()), old(layout), x, LinkNode.NULL)
      ensures freed == old(freed) + Deleted(old(Model()), x, LinkNode.NULL)
    {
      Reset(x, LinkNode.NULL);
    }

    /**
      `reset(p)`: when `p` differs from the stored pointer, a unique handle
      deletes its pointer and a shared one leaves its ring; then it stores `p`.
    */
    method Reset(x: int, p: int)
      requires Valid() && 0 <= x < |live| && live[x]
      modifies this, next, prev, stored
      ensures Valid() && live == old(live)
      ensures Model() == LinkNode.Reset(old(Model()), x, p)
      ensures layout == LinkNode.ResetLayout(old(Model()), old(layout), x, p)
      ensures freed == old(freed) + Deleted(old(Model()), x, p)
    {
      ghost var l, g := Model(), layout;
      LinkNode.ResetValid(l, g, live, x, p);
      if p != stored[x] {
        if Unique(x) {
          if stored[x] != LinkNode.NULL {
            freed := freed + [stored[x]];
          }
        } else {
          next[prev[x]] := next[x];
          prev[next[x]] := prev[x];
          next[x] := x;
          prev[x] := x;
          layout := LinkNode.UnlinkLayout(layout, x);
        }
        stored[x] := p;
      }
    }

    /**
      `operator=` from a handle (plain and converting): nothing when the pointers
      are equal, otherwise `reset(s.get())` and, for a non-null source, `link(s)`.
    */
    method Assign(x: int, s: int)
      requires Valid() && 0 <= x < |live| && 0 <= s < |live| && live[x] && live[s]
      modifies this, next, prev, stored
      ensures Valid() && live == old(live)
      ensures Model() == LinkNode.Assign(old(Model()), x, s)
      ensures layout == LinkNode.AssignLayout(old(Model()), old(layout), x, s)
      ensures freed == old(freed) + Deleted(old(Model()), x, old(stored[s]))
    {
      ghost var l, g := Model(), layout;
      LinkNode.AssignValid(l, g, live, x, s);
      if stored[s] != stored[x] {
        ghost var p := stored[s];
        LinkNode.ResetSound(l, x, p);
        Reset(x, stored[s]);
        assert stored[s] == p == l.stored[s];
        if stored[s] != LinkNode.NULL {
          Link(x, s);
          layout := LinkNode.LinkLayout(layout, x, s);
        }
      }
    }

    /** `operator=(p)` from a raw pointer: exactly `reset(p)`. */
    method AssignRaw(x: int, p: int)
      requires Valid() && 0 <= x < |live| && live[x]
      modifies this, next, prev, stored
      ensures Valid() && live == old(live)
      ensures Model() == LinkNode.Reset(old(Model()), x, p)
      ensures layout == LinkNode.ResetLayout(old(Model()), old(layout), x, p)
      ensures freed == old(freed) + Deleted(old(Model()), x, p)
    {
      Reset(x, p);
    }

    /** `swap_uniques`. */
    method SwapUniques(a: int, b: int)
      requires Wired() && LinkNode.Shaped(Model()) && 0 <= a < next.Length && 0 <= b < next.Length
      modifies stored
      ensures Model() == LinkNode.SwapUniques(old(Model()), a, b)
    {
      stored[a], stored[b] := stored[b], stored[a];
    }

    /** `swap_unique_non_unique(first, second)`. */
    method SwapUniqueNonUnique(first: int, second: int)
      requires Wired() && LinkNode.Shaped(Model()) && 0 <= first < next.Length && 0 <= second < next.Length
      modifies next, prev, stored
      ensures Model() == LinkNode.SwapUniqueNonUnique(old(Model()), first, second)
    {
      stored[first], stored[second] := stored[second], stored[first];
      var nextNonUnique := next[second];
      var prevNonUnique := prev[second];
      next[first] := nextNonUnique;
      prev[first] := prevNonUnique;
      prev[nextNonUnique] := first;
      next[prevNonUnique] := first;
      prev[second] := second;
      next[second] := prev[second];
    }

    /** `swap_non_uniques(first, second)`: five `std::swap`s. */
    method SwapNonUniques(first: int, second: int)
      requires Wired() && LinkNode.Shaped(Model()) && 0 <= first < next.Length && 0 <= second < next.Length
      modifies next, prev, stored
      ensures Model() == LinkNode.SwapNonUniques(old(Model()), first, second)
    {
      ghost var l := Model();
      stored[first], stored[second] := stored[second], stored[first];
      var i, j := next[first], next[second];
      prev[i], prev[j] := prev[j], prev[i];
      assert prev[..] == LinkNode.SwapAt(l.prev, i, j);
      i, j := prev[first], prev[second];
      next[i], next[j] := next[j], next[i];
      assert next[..] == LinkNode.SwapAt(l.next, i, j);
      next[first], next[second] := next[second], next[first];
      prev[first], prev[second] := prev[second], prev[first];
    }

    /**
      `a.swap(b)`: nothing when the pointers are equal, otherwise the case of the
      two handles' uniqueness picks one of the three helpers.
    */
    method Swap(a: int, b: int)
      requires Valid() && 0 <= a < |live| && 0 <= b < |live| && live[a] && live[b]
      modifies this, next, prev, stored
      ensures Valid() && live == old(live) && freed == old(freed)
      ensures Model() == LinkNode.Swap(old(Model()), a, b)
      ensures layout == LinkNode.SwapLayout(old(Model()), old(layout), a, b)
    {
      ghost var l, g := Model(), layout;
      LinkNode.SwapValid(l, g, live, a, b);
      if stored[a] != stored[b] {
        var ua, ub := Unique(a), Unique(b);
        SwapCases(a, b, ua, ub);
        layout := LinkNode.ExchangeLayout(layout, a, b);
        assert layout == LinkNode.SwapLayout(l, g, a, b);
      }
    }

    /** The dispatch of `swap` on the uniqueness of the two handles, pointers differing. */
    method SwapCases(a: int, b: int, ua: bool, ub: bool)
      requires Wired() && LinkNode.Shaped(Model()) && 0 <= a < next.Length && 0 <= b < next.Length
      requires stored[a] != stored[b] && ua == (next[a] == a) && ub == (next[b] == b)
      modifies next, prev, stored
      ensures Model() == LinkNode.Swap(old(Model()), a, b)
    {
      if ua && ub {
        SwapUniques(a, b);
      } else if ua && !ub {
        SwapUniqueNonUnique(a, b);
      } else if !ua && ub {
        SwapUniqueNonUnique(b, a);
      } else if !ua && !ub {
        SwapNonUniques(a, b);
      }
    }

    /**
      `use_count()`: walks `next` from `x` until it comes back, counting; the
      count is the size of `x`'s ring, and it is the first number of steps that
      brings the walk back to `x`.
    */
    method UseCount(x: int) returns (n: int)
      requires Valid() && 0 <= x < next.Length
      ensures 1 <= n == |LinkNode.Ring(layout, x)|
      ensures LinkNode.Iter(Model(), x, n) == x
      ensures forall k :: 0 < k < n ==> LinkNode.Iter(Model(), x, k) != x
    {
      ghost var l := Model();
      LinkNode.RingSizeIsPeriod(l, layout, x);
      n := 1;
      var current := x;
      while next[current] != x
        invariant 1 <= n <= |LinkNode.Ring(layout, x)|
        invariant current == LinkNode.Iter(l, x, n - 1)
        decreases |LinkNode.Ring(layout, x)| - n
      {
        current := next[current];
        n := n + 1;
      }
      assert LinkNode.Iter(l, x, n) == x;
    }

    /** `unique()`: the handle is the only member of its ring. */
    function Unique(x: int): (r: bool)
      reads this, next, prev, stored
      requires Valid() && 0 <= x < next.Length
      ensures r <==> |LinkNode.Ring(layout, x)| == 1
      ensures r <==> prev[x] == x
    {
      LinkNode.UniqueIffAlone(Model(), layout, x);
      next[x] == x
    }

    /** `get()`: the pointer shared by the whole ring. */
    function Get(x: int): (r: int)
      reads this, next, prev, stored
      requires Valid() && 0 <= x < next.Length
      ensures forall y :: 0 <= y < next.Length && layout.rid[y] == layout.rid[x] ==> stored[y] == r
    {
      LinkNode.RingHoldsOnePointer(Model(), layout, x);
      stored[x]
    }

    /** `operator bool`: the handle holds a pointer; a handle that does not is alone. */
    function IsSet(x: int): (r: bool)
      reads this, next, prev, stored
      requires Valid() && 0 <= x < next.Length
      ensures r <==> Get(x) != LinkNode.NULL
      ensures !r ==> Unique(x)
    {
      assert LinkNode.LinkedAt(Model(), x);
      stored[x] != LinkNode.NULL
    }

    /** `operator!`: the handle holds null; such a handle is alone. */
    function IsNull(x: int): (r: bool)
      reads this, next, prev, stored
      requires Valid() && 0 <= x < next.Length
      ensures r <==> Get(x) == LinkNode.NULL
      ensures r ==> Unique(x)
    {
      assert LinkNode.LinkedAt(Model(), x);
      stored[x] == LinkNode.NULL
    }
  }

  /** The arenas of `SwapLoneWithShared`, step by step. */
  lemma LoneAndSharedSteps(p: int, q: int)
    requires p != LinkNode.NULL && q != LinkNode.NULL && p != q
    ensures var l0 := LinkNode.Links(seq(3, h => h), seq(3, h => h), seq(3, h => LinkNode.NULL));
      var l := LinkNode.CopyInit(LinkNode.Singleton(LinkNode.Singleton(l0, 0, p), 1, q), 2, 1);
      && l == LinkNode.Links([0, 2, 1], [0, 2, 1], [p, q, q])
      && LinkNode.Swap(l, 0, 1) == LinkNode.Links([2, 1, 0], [2, 1, 0], [q, p, q])
      && LinkNode.Iter(l, 0, 1) == 0
      && var r := LinkNode.Swap(l, 0, 1);
        LinkNode.Iter(r, 0, 1) == 2 && LinkNode.Iter(r, 0, 2) == 0 && LinkNode.Iter(r, 1, 1) == 1
  {
    var l0 := LinkNode.Links(seq(3, h => h), seq(3, h => h), seq(3, h => LinkNode.NULL));
    assert l0 == LinkNode.Links([0, 1, 2], [0, 1, 2], [0, 0, 0]);
    var r := LinkNode.Links([2, 1, 0], [2, 1, 0], [q, p, q]);
    assert LinkNode.Iter(r, 0, 2) == r.next[LinkNode.Iter(r, 0, 1)];
  }

  /**
    `swap` of a lone handle with a shared one: the pointers are exchanged, the
    lone handle takes the other's place in its ring (`use_count()` goes from 1
    to 2), the other is left alone, and nothing is deleted.
  */
  method SwapLoneWithShared(p: int, q: int) returns (a: Arena, before: int, after: int, other: int)
    requires p != LinkNode.NULL && q != LinkNode.NULL && p != q
    ensures a.Valid() && a.freed == [] && a.stored[..] == [q, p, q]
    ensures before == 1 && after == 2 && other == 1
  {
    a := new Arena(3);
    a.InitRaw(0, p);
    a.InitRaw(1, q);
    a.InitCopy(2, 1);
    LoneAndSharedSteps(p, q);
    assert a.Model() == LinkNode.Links([0, 2, 1], [0, 2, 1], [p, q, q]);
    before := a.UseCount(0);
    assert before == 1;
    a.Swap(0, 1);
    assert a.Model() == LinkNode.Links([2, 1, 0], [2, 1, 0], [q, p, q]);
    after := a.UseCount(0);
    assert after == 2;
    other := a.UseCount(1);
  }
}

=== FILE: LinkedPtrDeleter.dfy ===
/**
  linked_ptr.h: the same handle with a `Deleter` policy. The arena, its
  invariant and the link rewriting are those of linked_ptr.hpp; the differences
  are that release calls the `Deleter`, which is called with the old pointer
  even when that pointer is null (the ghost log `calls` records every call), and
  that `swap` exchanges the two handles' own fields only.
*/
module LinkedPtrDeleter {
  import LinkNode

  class DeleterArena {
    const next: array<int>
    const prev: array<int>
    const stored: array<int>
    /** The rings the links form. */
    ghost var layout: LinkNode.Layout
    /** Which slots hold a constructed handle. */
    ghost var live: seq<bool>
    /** The argument of every call of the `Deleter`, in order. */
    ghost var calls: seq<int>

    ghost function Model(): LinkNode.Links
      reads this, next, prev, stored
    {
      LinkNode.Links(next[..], prev[..], stored[..])
    }

    /** Three separate arrays of one length. */
    ghost predicate Wired()
      reads this
    {
      && next != prev && next != stored && prev != stored
      && prev.Length == next.Length && stored.Length == next.Length
    }

    ghost predicate Valid()
      reads this, next, prev, stored
    {
      Wired() && |live| == next.Length && LinkNode.Valid(Model(), layout, live)
    }

    /** `n` slots of dead storage. */
    constructor(n: nat)
      ensures Valid() && |live| == n && calls == []
      ensures forall h :: 0 <= h < n ==> !live[h]
      ensures fresh(next) && fresh(prev) && fresh(stored)
      ensures Model() == LinkNode.Links(seq(n, h => h), seq(n, h => h), seq(n, h => LinkNode.NULL))
    {
      next := new int[n](h => h);
      prev := new int[n](h => h);
      stored := new int[n](h => LinkNode.NULL);
      layout := LinkNode.Layout(seq(n, h => [h]), seq(n, h => h), seq(n, h => 0));
      live := seq(n, h => false);
      calls := [];
      new;
      LinkNode.AllAlone(n);
      assert next[..] == seq(n, h => h) && prev[..] == seq(n, h => h);
      assert stored[..] == seq(n, h => LinkNode.NULL);
    }

    /** `link(other)`: splice `x` in directly after `s`. */
    method Link(x: int, s: int)
      requires Wired() && LinkNode.Shaped(Model()) && 0 <= x < next.Length && 0 <= s < next.Length
      modifies next, prev
      ensures Model() == LinkNode.LinkAfter(old(Model()), x, s)
    {
      next[x] := next[s];
      prev[next[x]] := x;
      prev[x] := s;
      next[s] := x;
    }

    /** `linked_ptr()`: a handle holding null, alone in its ring. */
    method Init(x: int)
      requires Valid() && 0 <= x < |live| && !live[x]
      modifies this, next, prev, stored
      ensures Valid() && live == old(live)[x := true] && calls == old(calls) && layout == old(layout)
      ensures Model() == LinkNode.Singleton(old(Model()), x, LinkNode.NULL)
      ensures |LinkNode.Ring(layout, x)| == 1
    {
      InitRaw(x, LinkNode.NULL);
    }

    /** `linked_ptr(p)`: a handle holding `p`, alone in its ring. */
    method InitRaw(x: int, p: int)
      requires Valid() && 0 <= x < |live| && !live[x]
      modifies this, next, prev, stored
      ensures Valid() && live == old(live)[x := true] && calls == old(calls) && layout == old(layout)
      ensures Model() == LinkNode.Singleton(old(Model()), x, p)
      ensures |LinkNode.Ring(layout, x)| == 1
    {
      LinkNode.InitValid(Model(), layout, live, x, p);
      stored[x] := p;
      next[x] := x;
      prev[x] := x;
      live := live[x := true];
    }

    /**
      The copy and converting constructors: from a non-null handle `s` the new
      handle joins `s`'s ring directly after it; from a null one it is alone.
    */
    method InitCopy(x: int, s: int)
      requires Valid() && 0 <= x < |live| && 0 <= s < |live| && !live[x] && live[s]
      modifies this, next, prev, stored
      ensures Valid() && live == old(live)[x := true] && calls == old(calls)
      ensures Model() == LinkNode.CopyInit(old(Model()), x, s)
      ensures layout == LinkNode.CopyInitLayout(old(Model()), old(layout), x, s)
    {
      ghost var l, g := Model(), layout;
      LinkNode.CopyInitValid(l, g, live, x, s);
      stored[x] := stored[s];
      if stored[x] != LinkNode.NULL {
        Link(x, s);
        layout := LinkNode.LinkLayout(layout, x, s);
      } else {
        next[x] := x;
        prev[x] := x;
      }
      live := live[x := true];
    }

    /** `~linked_ptr()`: `reset()`, after which the slot is dead storage again. */
    method Destroy(x: int)
      requires Valid() && 0 <= x < |live| && live[x]
      modifies this, next, prev, stored
      ensures Valid() && live == old(live)[x := false]
      ensures Model() == LinkNode.Reset(old(Model()), x, LinkNode.NULL)
      ensures layout == LinkNode.ResetLayout(old(Model()), old(layout), x, LinkNode.NULL)
      ensures calls == old(calls) + LinkNode.Released(old(Model()), x, LinkNode.NULL)
    {
      LinkNode.DestroyValid(Model(), layout, live, x);
      ResetNull(x);
      live := live[x := false];
    }

    /** `reset()`. */
    method ResetNull(x: int)
      requires Valid() && 0 <= x < |live| && live[x]
      modifies this, next, prev, stored
      ensures Valid() && live == old(live)
      ensures Model() == LinkNode.Reset(old(Model()), x, LinkNode.NULL)
      ensures layout == LinkNode.ResetLayout(old(Model()), old(layout), x, LinkNode.NULL)
      ensures calls == old(calls) + LinkNode.Released(old(Model()), x, LinkNode.NULL)
    {
      Reset(x, LinkNode.NULL);
    }

    /**
      `reset(p)`: when `p` differs from the stored pointer, a unique handle
      calls the `Deleter` on its pointer (null included) and a shared one leaves
      its ring; then it stores `p`.
    */
    method Reset(x: int, p: int)
      requires Valid() && 0 <= x < |live| && live[x]
      modifies this, next, prev, stored
      ensures Valid() && live == old(live)
      ensures Model() == LinkNode.Reset(old(Model()), x, p)
      ensures layout == LinkNode.ResetLayout(old(Model()), old(layout), x, p)
      ensures calls == old(calls) + LinkNode.Released(old(Model()), x, p)
    {
      ghost var l, g := Model(), layout;
      LinkNode.ResetValid(l, g, live, x, p);
      if p != stored[x] {
        if Unique(x) {
          calls := calls + [stored[x]];
        } else {
          next[prev[x]] := next[x];
          prev[next[x]] := prev[x];
          next[x] := x;
          prev[x] := x;
          layout := LinkNode.UnlinkLayout(layout, x);
        }
        stored[x] := p;
      }
    }

    /**
      `operator=` from a handle (plain and converting): nothing when the pointers
      are equal, otherwise `reset(s.get())` and, for a non-null source, `link(s)`.
    */
    method Assign(x: int, s: int)
      requires Valid() && 0 <= x < |live| && 0 <= s < |live| && live[x] && live[s]
      modifies this, next, prev, stored
      ensures Valid() && live == old(live)
      ensures Model() == LinkNode.Assign(old(Model()), x, s)
      ensures layout == LinkNode.AssignLayout(old(Model()), old(layout), x, s)
      ensures calls == old(calls) + LinkNode.Released(old(Model()), x, old(stored[s]))
    {
      ghost var l, g := Model(), layout;
      LinkNode.AssignValid(l, g, live, x, s);
      if stored[s] != stored[x] {
        ghost var p := stored[s];
        LinkNode.ResetSound(l, x, p);
        Reset(x, stored[s]);
        assert stored[s] == p == l.stored[s];
        if stored[s] != LinkNode.NULL {
          Link(x, s);
          layout := LinkNode.LinkLayout(layout, x, s);
        }
      }
    }

    /** `operator=(p)` from a raw pointer: exactly `reset(p)`. */
    method AssignRaw(x: int, p: int)
      requires Valid() && 0 <= x < |live| && live[x]
      modifies this, next, prev, stored
      ensures Valid() && live == old(live)
      ensures Model() == LinkNode.Reset(old(Model()), x, p)
      ensures layout == LinkNode.ResetLayout(old(Model()), old(layout), x, p)
      ensures calls == old(calls) + LinkNode.Released(old(Model()), x, p)
    {
      Reset(x, p);
    }

    /**
      `swap(other)`: the two handles exchange their `previous`, `next` and stored
      pointer, and nothing else is touched. Their neighbours still point at the
      old places, so the arena is left broken whenever the two are distinct
      handles holding different pointers.
    */
    method Swap(a: int, b: int)
      requires Valid() && 0 <= a < |live| && 0 <= b < |live| && live[a] && live[b]
      modifies next, prev, stored
      ensures Model() == LinkNode.NaiveSwap(old(Model()), a, b)
      ensures a != b && old(stored[a]) != old(stored[b]) ==> !LinkNode.Sound(Model())
    {
      ghost var l := Model();
      if a != b && stored[a] != stored[b] {
        LinkNode.NaiveSwapBreaksRings(l, a, b);
      }
      prev[a], prev[b] := prev[b], prev[a];
      next[a], next[b] := next[b], next[a];
      stored[a], stored[b] := stored[b], stored[a];
    }

    /**
      `use_count()`: walks `next` from `x` until it comes back, counting; the
      count is the size of `x`'s ring, and it is the first number of steps that
      brings the walk back to `x`.
    */
    method UseCount(x: int) returns (n: int)
      requires Valid() && 0 <= x < next.Length
      ensures 1 <= n == |LinkNode.Ring(layout, x)|
      ensures LinkNode.Iter(Model(), x, n) == x
      ensures forall k :: 0 < k < n ==> LinkNode.Iter(Model(), x, k) != x
    {
      ghost var l := Model();
      LinkNode.RingSizeIsPeriod(l, layout, x);
      n := 1;
      var current := x;
      while next[current] != x
        invariant 1 <= n <= |LinkNode.Ring(layout, x)|
        invariant current == LinkNode.Iter(l, x, n - 1)
        decreases |LinkNode.Ring(layout, x)| - n
      {
        current := next[current];
        n := n + 1;
      }
      assert LinkNode.Iter(l, x, n) == x;
    }

    /** `unique()`: the handle is the only member of its ring. */
    function Unique(x: int): (r: bool)
      reads this, next, prev, stored
      requires Valid() && 0 <= x < next.Length
      ensures r <==> |LinkNode.Ring(layout, x)| == 1
      ensures r <==> prev[x] == x
    {
      LinkNode.UniqueIffAlone(Model(), layout, x);
      next[x] == x
    }

    /** `get()`: the pointer shared by the whole ring. */
    function Get(x: int): (r: int)
      reads this, next, prev, stored
      requires Valid() && 0 <= x < next.Length
      ensures forall y :: 0 <= y < next.Length && layout.rid[y] == layout.rid[x] ==> stored[y] == r
    {
      LinkNode.RingHoldsOnePointer(Model(), layout, x);
      stored[x]
    }

    /** `operator bool_`: the handle holds a pointer; a handle that does not is alone. */
    function IsSet(x: int): (r: bool)
      reads this, next, prev, stored
      requires Valid() && 0 <= x < next.Length
      ensures r <==> Get(x) != LinkNode.NULL
      ensures !r ==> Unique(x)
    {
      assert LinkNode.LinkedAt(Model(), x);
      stored[x] != LinkNode.NULL
    }

    /** `operator!`: the handle holds null; such a handle is alone. */
    function IsNull(x: int): (r: bool)
      reads this, next, prev, stored
      requires Valid() && 0 <= x < next.Length
      ensures r <==> Get(x) == LinkNode.NULL
      ensures r ==> Unique(x)
    {
      assert LinkNode.LinkedAt(Model(), x);
      stored[x] == LinkNode.NULL
    }
  }

  /** The arenas and releases of `SharedOwnersReleaseOnce`, step by step. */
  lemma SharedOwnersSteps(p: int)
    requires p != LinkNode.NULL
    ensures var l0 := LinkNode.Links(seq(2, h => h), seq(2, h => h), seq(2, h => LinkNode.NULL));
      var l := LinkNode.CopyInit(LinkNode.Singleton(l0, 0, p), 1, 0);
      && l == LinkNode.Links([1, 0], [1, 0], [p, p])
      && LinkNode.Iter(l, 0, 1) == 1 && LinkNode.Iter(l, 0, 2) == 0
      && LinkNode.Released(l, 0, LinkNode.NULL) == []
      && var r := LinkNode.Reset(l, 0, LinkNode.NULL);
        && r == LinkNode.Links([0, 1], [0, 1], [LinkNode.NULL, p])
        && LinkNode.Iter(r, 1, 1) == 1
        && LinkNode.Released(r, 1, LinkNode.NULL) == [p]
  {
    var l0 := LinkNode.Links(seq(2, h => h), seq(2, h => h), seq(2, h => LinkNode.NULL));
    assert l0 == LinkNode.Links([0, 1], [0, 1], [0, 0]);
    var l := LinkNode.Links([1, 0], [1, 0], [p, p]);
    assert LinkNode.Iter(l, 0, 2) == l.next[LinkNode.Iter(l, 0, 1)];
  }

  /**
    Two owners of one pointer: the copy shares the ring (`use_count()` is 2),
    destroying the first owner calls no `Deleter` and leaves the copy alone
    (`use_count()` is 1), and destroying the copy calls the `Deleter` once.
  */
  method SharedOwnersReleaseOnce(p: int) returns (a: DeleterArena, before: int, after: int)
    requires p != LinkNode.NULL
    ensures a.Valid() && a.calls == [p]
    ensures before == 2 && after == 1
  {
    a := new DeleterArena(2);
    a.InitRaw(0, p);
    a.InitCopy(1, 0);
    SharedOwnersSteps(p);
    assert a.Model() == LinkNode.Links([1, 0], [1, 0], [p, p]);
    before := a.UseCount(0);
    assert before == 2;
    a.Destroy(0);
    assert a.Model() == LinkNode.Links([0, 1], [0, 1], [LinkNode.NULL, p]) && a.calls == [];
    after := a.UseCount(1);
    a.Destroy(1);
  }
}
